=== FILE: README.md ===
# Web crawler core, modelled in Dafny

This project models the crawl logic of `WebCrawler` in `web-crawler.py`, a
small Python crawler. It covers five parts:

- deriving the search prefix from the home URL;
- normalising each raw `href` found on a page (`fixGivenURL`) and sorting
  links into in-scope and external ones;
- the depth-first recursive crawl (`beginCrawl`, `crawlURL`), with its link
  budget and its duplicate detection on map keys;
- the `WebPage` record;
- the queries run after a crawl: stranded links, links crawled, the
  maximum-distance path, external links and broken links.

Fetching a page over the network, together with the regular-expression scan
of its HTML for `href` values, becomes one parameter:
`fetch: string -> Option<seq<string>>`. `None` means the page could not be
read. The crawler's mutable fields become an immutable `CrawlState` that the
recursion threads through. The crawl is a pair of mutually recursive
functions, `Crawl.CrawlURL` and `Crawl.CrawlChildren`. Their termination
measure is the remaining link budget.

The crawler's configuration (`Crawl.Config`) holds the two methods that
read the prefix, `fixGivenURL` and `isExternalURL`, as function-valued
fields. `Crawl.NewCrawler` sets them to `UrlRules.FixGivenURL` and
`UrlRules.IsExternalURL` under the derived prefix (`Crawl.SourceRules`).
The crawl lemmas hold whatever the two functions are, so they hold for
these. Lemmas that need what the two rules actually compute require
`Crawl.SourceRules`.

Modules:

- `Wrappers`: `Option`.
- `Strings`: Python's `str.find`, `startswith` and `str.replace` on
  `seq<char>`.
- `WebPages`: the page record.
- `UrlRules`: prefix, normalisation and scope tests.
- `Crawl`: crawler state, the crawl, `getNumLinksCrawled`,
  `getExternalLinks`, and flattening the map.
- `Stranded`: `isStrandedLink` and `getStrandedLinks`.
- `MaxDistance`: `getMaxDistancePath`.
- `BrokenLinks`: `getBrokenLinks`.

Python semantics that are modelled explicitly:

- `find` returns -1 when the needle is absent and 0 for an empty needle.
- Slicing at `find(...) + 1` is modelled as written.
- `replace` with an empty pattern inserts the replacement at every position.
- A `fixGivenURL` result is truthy exactly when it is not `False`, because
  every accepted result starts with `http`.

Three behaviours of the code are easy to misread. The model follows the
code in each:

- When the seed page cannot be fetched, the home URL is still stored, with
  an empty child list, when it is in scope (`Crawl.SeedFailure`).
- When deriving the prefix from the home URL (the docstring at line 124),
  the code either strips a leading `http://` or cuts at the first `/`,
  never both, because of the `elif` at line 156 (`UrlRules.HostPart`). The
  TLD cut then applies to whichever result it got.
- `getNumLinksCrawled` is documented at line 279 as "the number of unique
  links crawled". It is `linksVisited - numDuplicateLinks`, and
  `linksVisited` counts every raw link the child loop examines, refused
  and out-of-scope ones included, while the seed itself is never counted.
  So the count is at least the number of expanded pages minus one
  (`Crawl.NumLinksCrawledCoversKeys`); a seed with no links is expanded
  yet counted 0 (`Crawl.SeedNotCounted`), and refused links can push the
  count above the number of pages (`Crawl.RejectedLinksCounted`).

## Model

| member | source | states |
|---|---|---|
| `WebPages.NewPage` | web-crawler.py:32-45 | A page records its URL, parent and distance; its children are the fetched links, or none when the fetch fails; its broken-link list is `[(url, parent)]` exactly when the fetch fails and empty otherwise |
| `Strings.Find` | web-crawler.py:214 | `str.find`: the result is -1 or an index in range where the needle occurs |
| `Strings.FindFirst` | web-crawler.py:214 | `str.find` returns the first occurrence: an occurrence at `j` means the result is at most `j` |
| `Strings.ReplaceAll` | web-crawler.py:194 | `str.replace`: a pattern that does not occur leaves the text unchanged; with an empty pattern the result grows by one replacement per each of the `len + 1` positions, and an empty pattern replaced by an empty text leaves the text unchanged |
| `Strings.ReplaceByItself` | web-crawler.py:194 | Replacing any pattern by itself returns the text unchanged, including the empty pattern by the empty text, which is the only replacement line 194 performs |
| `UrlRules.HostPart` | web-crawler.py:152-157 | The home URL without a leading `http://`; otherwise the longest prefix of the home URL without a `/`, i.e. the home URL cut before its first `/`, or all of it when it has none; it is always a substring of the home URL |
| `UrlRules.TruncateAtTld` | web-crawler.py:158-165 | The text ends right after the first `.com`; failing that, after the first `.edu`, then `.gov`, then `.org`; with none of them it is unchanged |
| `UrlRules.GetCorrectPrefix` | web-crawler.py:144-166 | A non-empty given prefix is returned as is; otherwise the prefix is a substring of the home URL and starts its host part |
| `UrlRules.HomeInScope` | web-crawler.py:144-166 | With a derived prefix, the home URL always passes the scope test of line 214 |
| `UrlRules.StripFragment` | web-crawler.py:187-188 | The link up to its first `#`: a prefix of the link that has no `#` and is followed in the link by a `#`, or the whole link when it has none |
| `UrlRules.FixGivenURL` | web-crawler.py:181-203 | A link is refused exactly when it starts with `#` or contains `javascript:`, `.java` or `mailto`; every accepted result starts with `http` |
| `UrlRules.FixKeepsAbsoluteLinks` | web-crawler.py:187-202 | A link that is not refused, is not `//`-relative and names `.com`/`.edu`/`.gov`/`.org` before any `#` comes back as its text up to the first `#`, with `http://` added only if that text does not start with `http` |
| `UrlRules.FixIdempotent` | web-crawler.py:181-203 | Normalising such a result again, from any page and under any prefix, returns it unchanged |
| `UrlRules.FixProtocolRelative` | web-crawler.py:187-190 | A `//` link, cut at its first `#`, comes back with `http:` in front |
| `UrlRules.FixBecomesPage` | web-crawler.py:191-197 | A relative link without a TLD that the page URL contains, on a page whose URL has a `.`, comes back as the page URL, with `http://` added only if it does not start with `http` |
| `UrlRules.FixAppendsToPage` | web-crawler.py:191-202 | A relative link without a TLD that the page URL does not contain comes back as the page URL followed by the link cut at its first `#`, with `http://` added only if that does not start with `http` |
| `UrlRules.FixRemovesFragment` | web-crawler.py:170-203 | The fragment is always removed: on an in-scope page whose URL has no `#`, under a prefix without `#`, no accepted result contains a `#`, whichever branch produced it |
| `UrlRules.RelativeNoFragment` | web-crawler.py:191-202 | Each of the three relative branches, on an in-scope page whose URL has no `#` under a prefix without `#`, accepts the link and returns a URL without `#` |
| `UrlRules.WithSchemeNoFragment` | web-crawler.py:201-202 | Putting `http://` in front of a URL without `#` yields a URL without `#` |
| `UrlRules.DotlessDomainDoublesPrefix` | web-crawler.py:191-195 | A relative link without a TLD found on an in-scope page whose URL has no `.` comes back as the prefix written twice followed by the link: the `replace` of line 194 has empty heads and returns the prefix, and line 195 prepends the prefix again |
| `UrlRules.InScopeIsNotExternal` | web-crawler.py:244-249 | A URL that contains the prefix is never classified external, since the test looks for a suffix of the prefix |
| `Crawl.NewCrawlerRules` | web-crawler.py:126-138 | The constructor derives the prefix with `getCorrectPrefix`; the crawler normalises with `fixGivenURL` and classifies with `isExternalURL` under that prefix |
| `Crawl.AcceptedMembers` | web-crawler.py:224-233 | The accepted links are exactly the normalised forms of the raw links that the normaliser does not refuse |
| `Crawl.AcceptedStartHttp` | web-crawler.py:226-233 | Under the source's rules every accepted child link starts with `http` |
| `Crawl.VisitLink` | web-crawler.py:226-234 | One raw link inside the budget adds a child record exactly when it is accepted, and appends it to the external links exactly when it is external |
| `Crawl.ChildLoop` | web-crawler.py:224-229 | Each raw link costs one visit. The loop overruns exactly when the budget cannot cover the remaining links; it then stops one visit past the larger of the visits so far and the budget (budget + 1 for a non-negative budget met from below), and otherwise it adds one visit per link |
| `Crawl.ChildLoopRecords` | web-crawler.py:224-234 | A loop inside the budget yields one child record per accepted link, in order, and appends exactly the external ones to the external links |
| `Crawl.ChildLoopAppends` | web-crawler.py:231-232 | The child loop only ever appends to the external links |
| `Crawl.ChildLoopExternals` | web-crawler.py:230-232 | Everything the child loop appends to the external links is external |
| `Crawl.CrawlURLGrows` | web-crawler.py:212-241 | One `crawlURL` call never overwrites or removes a stored key and only appends external links. Counters only grow, and visits end at most one past the larger of the visits so far and the budget (budget + 1 when the call starts within a non-negative budget). Every duplicate counted is matched by a visit, except for the call's own page. Once the budget is spent, nothing is stored beyond the page itself |
| `Crawl.CrawlChildrenGrows` | web-crawler.py:237-241 | The loop over stored children keeps the same growth guarantees, and no child is crawled once `linksToVisit - linksVisited <= 0` |
| `Crawl.CrawlURLStores` | web-crawler.py:212-236 | An out-of-scope page changes nothing. A stored URL only bumps the duplicate counter. A new page gets a map entry exactly when its raw links fit the remaining budget. That entry lists the accepted links, in order, with the page as parent and distance `counter + 1` |
| `Crawl.CrawlURLValid` | web-crawler.py:212-241 | `crawlURL` preserves the invariant. Every key is in scope. Every record under key K has parent K, lies at a distance of at least 1 shared with its siblings, and holds what fetching its URL yields. Every recorded external link is external |
| `Crawl.ExpandValid` | web-crawler.py:221-241 | The branch that expands a new page without overrunning the link budget in its child loop preserves that invariant |
| `Crawl.CrawlChildrenValid` | web-crawler.py:237-241 | Crawling the stored children one by one preserves that invariant |
| `Crawl.StoreLoopResult` | web-crawler.py:224-236 | Storing the child list of a loop that stayed within the budget keeps the invariant |
| `Crawl.StoreChildPages` | web-crawler.py:236 | Storing fresh child records under an in-scope URL keeps the invariant |
| `Crawl.BeginCrawl` | web-crawler.py:205-210 | A crawl from the home page at distance 0 ends with the invariant holding. With a non-negative budget, at most budget + 1 links are visited. Duplicates number between 0 and the links visited |
| `Crawl.SeedFailure` | web-crawler.py:205-236 | When the seed cannot be fetched, nothing is visited and no external link is recorded. The map is `{home: []}` if home is in scope, and empty otherwise |
| `Crawl.ExternalNeverKey` | web-crawler.py:214-215 | Under the invariant and the source's rules, no recorded external link is a map key, so no external page is ever expanded |
| `Crawl.NumLinksCrawledBounds` | web-crawler.py:277-281 | After a crawl, `getNumLinksCrawled` is at least 0, and at most budget + 1 when the budget is non-negative |
| `Crawl.CrawlURLCounts` | web-crawler.py:212-241 | Within one `crawlURL` call, new keys plus new duplicates are at most the new visits plus one (the call's own page) |
| `Crawl.CrawlChildrenCounts` | web-crawler.py:237-241 | Over the stored children, new keys plus new duplicates are at most the new visits plus the number of children still to crawl |
| `Crawl.NumLinksCrawledCoversKeys` | web-crawler.py:277-281 | After a crawl, the map has at most `getNumLinksCrawled() + 1` keys |
| `Crawl.SeedNotCounted` | web-crawler.py:205-236 | A home page `h` with no raw links is expanded, so the map has the key `h`, yet `getNumLinksCrawled` returns 0: the seed is not counted |
| `Crawl.RejectedLinksCounted` | web-crawler.py:224-229 | A home page `h` whose only raw links are `#a` and `#b` is the only page expanded, yet `getNumLinksCrawled` returns 2: refused links are counted |
| `Crawl.ExternalLinksAfterCrawl` | web-crawler.py:318-322 | Under the source's rules, every link `getExternalLinks` reports after a crawl is external under the crawler's prefix and is not a map key |
| `Crawl.Flatten` | web-crawler.py:296-302 | The flat list holds exactly the records stored under the listed keys |
| `Crawl.FlattenValid` | web-crawler.py:296-302 | Every record in the flattened map of a crawl lies at a distance of at least 1 and holds what fetching it yields |
| `Stranded.IsStrandedLink` | web-crawler.py:264-275 | A key is not stranded exactly when some child record has a raw link, and either the key is the home URL up to a trailing `/`, or some raw link is `homeURL` or `homeURL + '/'` |
| `Stranded.GetStrandedLinks` | web-crawler.py:252-261 | The result holds exactly the keys that `isStrandedLink` reports |
| `Stranded.NoRawLinksStranded` | web-crawler.py:264-275 | A key whose child records have no raw links is stranded, the home page included |
| `Stranded.HomeKeyNotStranded` | web-crawler.py:269-272 | A home-equivalent key with any raw link among its child records is not stranded |
| `MaxDistance.MinDistanceLeast` | web-crawler.py:307-310 | The least distance of a URL is attained by one of its records and is no greater than any of them |
| `MaxDistance.StepInv` | web-crawler.py:307-314 | One reconciling step between two records with the same URL keeps the invariant; afterwards the first record lies at or below `maxDistance` and at or below the second's original distance |
| `MaxDistance.InnerInv` | web-crawler.py:306-314 | The inner loop over columns preserves the invariant. Distances only fall, never below their URL's least distance. `maxDistance` only rises. A path exists exactly when it rose. The loop settles its row at the least distance for that URL |
| `MaxDistance.OuterInv` | web-crawler.py:305-314 | The outer loop over rows preserves that invariant and settles every record |
| `MaxDistance.GetMaxDistancePathSpec` | web-crawler.py:289-315 | Records that share a URL all end at the least of their distances, and are otherwise unchanged. `maxDistance` never falls and ends at least as large as every record's distance. The path is a one-element list naming one of the URLs, and it exists exactly when `maxDistance` rose |
| `MaxDistance.PathExistsIffRecords` | web-crawler.py:303-315 | For a fresh crawler over records at distance at least 1, a path exists exactly when there is a record; otherwise the source raises `UnboundLocalError` |
| `MaxDistance.PathAfterCrawl` | web-crawler.py:296-315 | After a crawl, there is a path exactly when some expanded page has a child record |
| `MaxDistance.OverReportedDistance` | web-crawler.py:305-314 | As written: two records for one page at distances 5 and 3 report `maxDistance` 5, yet both end at 3, so the reported path does not lie at the reported distance |
| `MaxDistance.ScanMaxSpec` | web-crawler.py:311-314 | Scanning the records keeps the largest distance. The path names a record at exactly that distance, and exists exactly when the maximum rose |
| `MaxDistance.FixedPathConsistent` | web-crawler.py:289-315 | The corrected pass reconciles the distances as the source does. Its maximum bounds every reconciled distance, and its path names a page whose least distance is exactly that maximum |
| `BrokenLinks.ReverseMembers` | web-crawler.py:331-332 | Popping a list into another keeps exactly its elements |
| `BrokenLinks.PopAll` | web-crawler.py:331-332 | Popping `n` times moves the last `n` entries to the output in reverse order and leaves the rest behind |
| `BrokenLinks.DrainRecords` | web-crawler.py:330-332 | Draining one key's records from position `i` on leaves as many records, the earlier ones unchanged and every later one with an empty list |
| `BrokenLinks.DrainRecordsMembers` | web-crawler.py:330-332 | Draining one key's records adds exactly the pairs they list to the report: a pair is in the result exactly when it was already there or a drained record lists it |
| `BrokenLinks.ReverseMultiset` | web-crawler.py:331-332 | Popping a list into another keeps every element with its multiplicity |
| `BrokenLinks.DrainRecordsBag` | web-crawler.py:330-332 | Draining one key's records adds each pair to the report as many times as the records list it |
| `BrokenLinks.DrainKeysMap` | web-crawler.py:329-333 | Draining the keys empties exactly their records and leaves the rest of the map alone |
| `BrokenLinks.DrainKeysMembers` | web-crawler.py:329-333 | The report holds exactly the pairs listed by the records under the drained keys |
| `BrokenLinks.KeysBagFrame` | web-crawler.py:329-333 | Draining one key does not change what the other keys list |
| `BrokenLinks.DrainKeysBag` | web-crawler.py:329-333 | Draining the keys reports each pair as many times as the records under those keys list it |
| `BrokenLinks.GetBrokenLinksSpec` | web-crawler.py:324-333 | The report holds exactly the pairs some record lists, and every record is left drained |
| `BrokenLinks.GetBrokenLinksBag` | web-crawler.py:324-333 | The report lists each pair as many times as the records, taken key by key, list it |
| `BrokenLinks.SecondCallEmpty` | web-crawler.py:324-333 | Because the lists are drained, a second call reports nothing |
| `BrokenLinks.BrokenAfterCrawl` | web-crawler.py:324-333 | After a crawl, the report holds exactly the pairs (child URL, parent key) of stored child records whose fetch failed |
| `BrokenLinks.RecordsBagCount` | web-crawler.py:38-45 | Records fetched under parent `k` list `(u, k)` once per record for `u` when fetching `u` fails, and nothing else |
| `BrokenLinks.KeysBagCount` | web-crawler.py:329-333 | Over a valid map, the listed keys report `(u, k)` once per record for `u` under `k` when fetching `u` fails, and nothing else |
| `BrokenLinks.BrokenCountAfterCrawl` | web-crawler.py:324-333 | After a crawl, the report lists the pair (child URL, parent key) once for every record of that URL under that key whose fetch failed, so a page linking twice to one dead URL reports it twice |
| `BrokenLinks.FailedSeedNotReported` | web-crawler.py:208-209 | A seed whose fetch fails is never reported as broken |

## Left out

- `readURL` (the urllib2 request), the `time.sleep` courtesy delay and every
  `print`: fetching is the `fetch` parameter. It is deterministic, whereas the
  source fetches again at every occurrence of a URL.
- `getAllHrefValues`: the regular-expression scan for `href` values is folded
  into `fetch`, which returns the raw links in order.
- `main`, `printBrokenLinks`, `printOutGoingLinks`, `printActionSummary` and
  the argparse block: these are user interface.
- Dictionary iteration order is an input sequence that lists each key once
  (`Crawl.Enumerates`). `getStrandedLinks` returns a set rather than a list
  in dictionary order.
- `getMaxDistance` and the `WebPage` getters: plain field reads.
- Python's recursion limit: a deep crawl that would raise `RecursionError`
  is modelled as completing.
- Prefix `None` versus the empty string: both are falsy at line 152 and are
  modelled as the empty string.
- `isStrandedLink` on a URL that is not a key raises `KeyError` in the
  source; the model requires a key.
- `getMaxDistancePath` writes the reconciled distances into the map's
  records. The model returns them in a flat list instead, and takes and
  returns the `maxDistance` field. Where the source raises
  `UnboundLocalError`, the model returns no path.
- UrlRules.GetCorrectPrefix: its contract states the `.com` cut and the
  no-TLD case only. The `.edu`, `.gov` and `.org` cuts are stated on
  `UrlRules.TruncateAtTld`, which it applies.
- Strings.ReplaceAll: its contract does not state the full content of
  `str.replace`. The crawler only ever calls it with an empty pattern and
  an empty replacement: line 194 runs only when the page URL has no `.`,
  and an in-scope page URL contains the prefix, so the prefix has no `.`
  either. The contract states that call exactly (the text comes back
  unchanged), plus the no-occurrence case and the length for an empty
  pattern; the interleaving for a non-empty replacement is left unstated.
- Crawl.CrawlURL and Crawl.CrawlChildren: their own contracts state only
  that visits never decrease. Their properties are the lemmas listed above.

## Findings

| source | as written | input that shows it | evidently intended | confidence | as-written member | corrected member |
|---|---|---|---|---|---|---|
| web-crawler.py:305-314 | `maxDistance` is raised when a record's distance is compared, before the other records for the same URL have lowered it | two records for one page at distances 5 and 3, with `maxDistance` 0 | per the note at line 293, compare shortest paths: the maximum should be a reconciled (least) distance, namely 3, the distance of the page on the path | medium; not executed | `MaxDistance.GetMaxDistancePath`, shown by `MaxDistance.OverReportedDistance` | `MaxDistance.GetMaxDistancePathFixed`, proved by `MaxDistance.FixedPathConsistent` |

=== FILE: broken_links.dfy ===
/** `getBrokenLinks`: collect the broken-link pairs of every child record by
    popping them off the record's own list, so that the records are left
    drained. */
module BrokenLinks {
  import opened WebPages
  import Crawl

  /** `s` back to front. */
  function Reverse<T>(s: seq<T>): (r: seq<T>)
    ensures |r| == |s|
  {
    if s == [] then [] else [s[|s| - 1]] + Reverse(s[..|s| - 1])
  }

  lemma {:induction false} ReverseAt<T>(s: seq<T>, i: nat)
    requires i < |s|
    ensures Reverse(s)[i] == s[|s| - 1 - i]
    decreases |s|
  {
    if i > 0 {
      ReverseAt(s[..|s| - 1], i - 1);
    }
  }

  /** Reversing keeps exactly the same elements. */
  lemma ReverseMembers<T>(s: seq<T>, x: T)
    ensures x in Reverse(s) <==> x in s
  {
    if x in Reverse(s) {
      var i :| 0 <= i < |s| && Reverse(s)[i] == x;
      ReverseAt(s, i);
    }
    if x in s {
      var i :| 0 <= i < |s| && s[i] == x;
      ReverseAt(s, |s| - 1 - i);
    }
  }

  /** Reversing keeps every element with its multiplicity. */
  lemma {:induction false} ReverseMultiset<T>(s: seq<T>)
    ensures multiset(Reverse(s)) == multiset(s)
    decreases |s|
  {
    if s != [] {
      ReverseMultiset(s[..|s| - 1]);
      assert s == s[..|s| - 1] + [s[|s| - 1]];
    }
  }

  /** Pop `stack` `n` times onto `out`: the last `n` entries move to `out`
      in reverse order and the rest stay behind. */
  function PopAll<T>(stack: seq<T>, n: nat, out: seq<T>): (r: (seq<T>, seq<T>))
    requires n <= |stack|
    ensures r.0 == out + Reverse(stack[|stack| - n..])
    ensures r.1 == stack[..|stack| - n]
    decreases n
  {
    if n == 0 then
      assert stack[|stack|..] == [];
      (out, stack)
    else
      var top := stack[|stack| - 1];
      var rest := stack[..|stack| - 1];
      assert rest[|rest| - (n - 1)..] == stack[|stack| - n..][..n - 1];
      assert rest[..|rest| - (n - 1)] == stack[..|stack| - n];
      PopAll(rest, n - 1, out + [top])
  }

  /** A record with its broken-link list emptied. */
  function Emptied(p: WebPage): WebPage
  {
    p.(brokenLinks := [])
  }

  /** Every record of `recs` emptied. */
  function DrainedAll(recs: seq<WebPage>): (r: seq<WebPage>)
    ensures |r| == |recs| && forall k | 0 <= k < |recs| :: r[k] == Emptied(recs[k])
  {
    seq(|recs|, k requires 0 <= k < |recs| => Emptied(recs[k]))
  }

  /** The broken-link pairs that the records of `recs` list, each as often
      as it is listed. */
  function BrokenBag(recs: seq<WebPage>): multiset<BrokenLink>
  {
    if recs == [] then multiset{} else multiset(recs[0].brokenLinks) + BrokenBag(recs[1..])
  }

  /** Draining the records from `i` on reports each pair as often as they
      list it. */
  lemma {:induction false} DrainRecordsBag(recs: seq<WebPage>, i: nat, out: seq<BrokenLink>)
    requires i <= |recs|
    ensures multiset(DrainRecords(recs, i, out).0) == multiset(out) + BrokenBag(recs[i..])
    decreases |recs| - i
  {
    if i < |recs| {
      var links := recs[i].brokenLinks;
      var (o, rest) := PopAll(links, |links|, out);
      assert links[|links| - |links|..] == links;
      ReverseMultiset(links);
      var recs' := recs[i := Emptied(recs[i])];
      DrainRecordsBag(recs', i + 1, o);
      assert recs'[i + 1..] == recs[i + 1..];
      assert recs[i..][1..] == recs[i + 1..];
    }
  }

  /** Some record of `recs` from index `i` on lists `x` as broken. */
  ghost predicate ListedFrom(recs: seq<WebPage>, i: nat, x: BrokenLink)
  {
    exists k | i <= k < |recs| :: x in recs[k].brokenLinks
  }

  /** Draining the records from `i` on reports exactly the pairs they list,
      on top of those already in `out`. */
  lemma {:induction false} DrainRecordsMembers(recs: seq<WebPage>, i: nat, out: seq<BrokenLink>, x: BrokenLink)
    requires i <= |recs|
    ensures x in DrainRecords(recs, i, out).0 <==> x in out || ListedFrom(recs, i, x)
    decreases |recs| - i
  {
    if i < |recs| {
      var links := recs[i].brokenLinks;
      var (o, rest) := PopAll(links, |links|, out);
      assert links[|links| - |links|..] == links;
      ReverseMembers(links, x);
      var recs' := recs[i := Emptied(recs[i])];
      DrainRecordsMembers(recs', i + 1, o, x);
      if ListedFrom(recs, i, x) && x !in links {
        var k :| i <= k < |recs| && x in recs[k].brokenLinks;
        assert recs'[k] == recs[k];
      }
      if ListedFrom(recs', i + 1, x) {
        var k :| i + 1 <= k < |recs'| && x in recs'[k].brokenLinks;
        assert recs'[k] == recs[k];
      }
    }
  }

  /** The loop over one key's records (web-crawler.py lines 330-332), from record `i` on. */
  function DrainRecords(recs: seq<WebPage>, i: nat, out: seq<BrokenLink>): (r: (seq<BrokenLink>, seq<WebPage>))
    requires i <= |recs|
    ensures |r.1| == |recs|
    ensures forall k | 0 <= k < i :: r.1[k] == recs[k]
    ensures forall k | i <= k < |recs| :: r.1[k] == Emptied(recs[k])
    decreases |recs| - i
  {
    if i == |recs| then (out, recs)
    else
      var links := recs[i].brokenLinks;
      var (o, rest) := PopAll(links, |links|, out);
      var recs' := recs[i := Emptied(recs[i])];
      DrainRecords(recs', i + 1, o)
  }

  /** Some record stored under a key of `order` lists `x` as broken. */
  ghost predicate ListedUnder(pages: map<string, seq<WebPage>>, order: seq<string>, x: BrokenLink)
  {
    exists k | k in order && k in pages :: ListedFrom(pages[k], 0, x)
  }

  /** The loop over the keys (web-crawler.py line 329), in the order given. */
  function DrainKeys(pages: map<string, seq<WebPage>>, order: seq<string>, out: seq<BrokenLink>)
    : (r: (seq<BrokenLink>, map<string, seq<WebPage>>))
    requires forall k | k in order :: k in pages
    ensures r.1.Keys == pages.Keys
  {
    if order == [] then (out, pages)
    else
      var key := order[0];
      var (o, recs) := DrainRecords(pages[key], 0, out);
      DrainKeys(pages[key := recs], order[1..], o)
  }

  /** The broken-link pairs listed under the keys of `order`, with their
      multiplicities. */
  function KeysBag(pages: map<string, seq<WebPage>>, order: seq<string>): multiset<BrokenLink>
    requires forall k | k in order :: k in pages
  {
    if order == [] then multiset{} else BrokenBag(pages[order[0]]) + KeysBag(pages, order[1..])
  }

  /** Changing the records of a key outside `order` does not change what
      the keys of `order` list. */
  lemma {:induction false} KeysBagFrame(pages: map<string, seq<WebPage>>, order: seq<string>,
                                        key: string, recs: seq<WebPage>)
    requires forall k | k in order :: k in pages
    requires key !in order
    ensures KeysBag(pages[key := recs], order) == KeysBag(pages, order)
    decreases |order|
  {
    if order != [] {
      assert order[0] != key;
      KeysBagFrame(pages, order[1..], key, recs);
    }
  }

  lemma DistinctTail(order: seq<string>)
    requires order != [] && Crawl.Distinct(order)
    ensures Crawl.Distinct(order[1..]) && order[0] !in order[1..]
  {
    assert forall a, b | 0 <= a < b < |order[1..]| :: order[1..][a] == order[a + 1] && order[1..][b] == order[b + 1];
  }

  /** Draining the keys of `order` empties exactly their records and
      leaves the rest of the map alone. */
  lemma {:induction false} DrainKeysMap(pages: map<string, seq<WebPage>>, order: seq<string>, out: seq<BrokenLink>)
    requires forall k | k in order :: k in pages
    requires Crawl.Distinct(order)
    ensures var r := DrainKeys(pages, order, out);
      forall k | k in pages :: r.1[k] == if k in order then DrainedAll(pages[k]) else pages[k]
    decreases |order|
  {
    if order != [] {
      var key := order[0];
      var (o, recs) := DrainRecords(pages[key], 0, out);
      assert recs == DrainedAll(pages[key]);
      DistinctTail(order);
      DrainKeysMap(pages[key := recs], order[1..], o);
    }
  }

  /** Draining the keys of `order` reports exactly the pairs their records
      list. */
  lemma {:induction false} DrainKeysMembers(pages: map<string, seq<WebPage>>, order: seq<string>,
                                            out: seq<BrokenLink>, x: BrokenLink)
    requires forall k | k in order :: k in pages
    requires Crawl.Distinct(order)
    ensures x in DrainKeys(pages, order, out).0 <==> x in out || ListedUnder(pages, order, x)
    decreases |order|
  {
    if order != [] {
      var key := order[0];
      var (o, recs) := DrainRecords(pages[key], 0, out);
      var pages' := pages[key := recs];
      DrainRecordsMembers(pages[key], 0, out, x);
      DistinctTail(order);
      DrainKeysMembers(pages', order[1..], o, x);
      if ListedUnder(pages, order, x) && !ListedFrom(pages[key], 0, x) {
        var k :| k in order && k in pages && ListedFrom(pages[k], 0, x);
        assert k in order[1..] && pages'[k] == pages[k];
      }
      if ListedUnder(pages', order[1..], x) {
        var k :| k in order[1..] && k in pages' && ListedFrom(pages'[k], 0, x);
        assert k != key && pages'[k] == pages[k];
      }
    }
  }

  /** Draining the keys of `order` reports every listed pair as often as
      the records under those keys list it. */
  lemma {:induction false} DrainKeysBag(pages: map<string, seq<WebPage>>, order: seq<string>, out: seq<BrokenLink>)
    requires forall k | k in order :: k in pages
    requires Crawl.Distinct(order)
    ensures multiset(DrainKeys(pages, order, out).0) == multiset(out) + KeysBag(pages, order)
    decreases |order|
  {
    if order != [] {
      var key := order[0];
      var (o, recs) := DrainRecords(pages[key], 0, out);
      DrainRecordsBag(pages[key], 0, out);
      assert pages[key][0..] == pages[key];
      DistinctTail(order);
      DrainKeysBag(pages[key := recs], order[1..], o);
      KeysBagFrame(pages, order[1..], key, recs);
    }
  }

  /** `getBrokenLinks` over the keys in dictionary order: the report and
      the map with every record drained. */
  function GetBrokenLinks(pages: map<string, seq<WebPage>>, order: seq<string>)
    : (r: (seq<BrokenLink>, map<string, seq<WebPage>>))
    requires Crawl.Enumerates(order, pages)
  {
    DrainKeys(pages, order, [])
  }

  /** The report holds exactly the pairs some record lists, and every
      record comes back with an empty broken-link list. */
  lemma GetBrokenLinksSpec(pages: map<string, seq<WebPage>>, order: seq<string>, x: BrokenLink)
    requires Crawl.Enumerates(order, pages)
    ensures var r := GetBrokenLinks(pages, order);
      && (x in r.0 <==> exists k, i | k in pages && 0 <= i < |pages[k]| :: x in pages[k][i].brokenLinks)
      && r.1.Keys == pages.Keys
      && (forall k | k in pages :: r.1[k] == DrainedAll(pages[k]))
  {
    DrainKeysMap(pages, order, []);
    DrainKeysMembers(pages, order, [], x);
    if x in GetBrokenLinks(pages, order).0 {
      var k :| k in order && k in pages && ListedFrom(pages[k], 0, x);
    }
  }

  /** The report lists each pair as many times as the records list it. */
  lemma GetBrokenLinksBag(pages: map<string, seq<WebPage>>, order: seq<string>)
    requires Crawl.Enumerates(order, pages)
    ensures multiset(GetBrokenLinks(pages, order).0) == KeysBag(pages, order)
  {
    DrainKeysBag(pages, order, []);
  }

  /** The lists are drained, so asking again reports nothing. */
  lemma SecondCallEmpty(pages: map<string, seq<WebPage>>, order: seq<string>)
    requires Crawl.Enumerates(order, pages)
    ensures var r := GetBrokenLinks(pages, order);
      Crawl.Enumerates(order, r.1) && GetBrokenLinks(r.1, order).0 == []
  {
    var r := GetBrokenLinks(pages, order);
    var again := GetBrokenLinks(r.1, order).0;
    if again != [] {
      GetBrokenLinksSpec(pages, order, again[0]);
      GetBrokenLinksSpec(r.1, order, again[0]);
    }
  }

  /** How many of the records in `recs` are for URL `u`. */
  function Occurrences(recs: seq<WebPage>, u: string): nat
  {
    if recs == [] then 0 else (if recs[0].givenURL == u then 1 else 0) + Occurrences(recs[1..], u)
  }

  /** Records fetched under parent `k` list the pair `(u, k)` once per
      record for `u` when fetching `u` fails, and list nothing else. */
  lemma {:induction false} RecordsBagCount(cfg: Crawl.Config, k: string, recs: seq<WebPage>, x: BrokenLink)
    requires forall i | 0 <= i < |recs| :: recs[i].parentURL == k && Fetched(cfg.fetch, recs[i])
    ensures BrokenBag(recs)[x] == if x.1 == k && cfg.fetch(x.0).None? then Occurrences(recs, x.0) else 0
    decreases |recs|
  {
    if recs != [] {
      RecordsBagCount(cfg, k, recs[1..], x);
      assert recs[0] == NewPage(cfg.fetch, recs[0].givenURL, recs[0].distanceFromHome, k);
    }
  }

  /** Over a valid map, the keys of `order` list the pair `(u, k)` once per
      record for `u` under `k`, when `k` is in `order` and fetching `u`
      fails, and list nothing else. */
  lemma {:induction false} KeysBagCount(cfg: Crawl.Config, pages: map<string, seq<WebPage>>,
                                        order: seq<string>, x: BrokenLink)
    requires Crawl.PagesValid(cfg, pages)
    requires forall k | k in order :: k in pages
    requires Crawl.Distinct(order)
    ensures KeysBag(pages, order)[x] ==
      if x.1 in order && cfg.fetch(x.0).None? then Occurrences(pages[x.1], x.0) else 0
    decreases |order|
  {
    if order != [] {
      var k := order[0];
      assert Crawl.RecordsValid(cfg, k, pages[k]);
      RecordsBagCount(cfg, k, pages[k], x);
      DistinctTail(order);
      KeysBagCount(cfg, pages, order[1..], x);
    }
  }

  /** After a crawl, the report lists the pair (child URL, parent key) once
      for every record of that URL stored under that key whose fetch
      failed, and lists nothing else. */
  lemma BrokenCountAfterCrawl(cfg: Crawl.Config, order: seq<string>, x: BrokenLink)
    requires Crawl.Enumerates(order, Crawl.BeginCrawl(cfg).pages)
    ensures var pages := Crawl.BeginCrawl(cfg).pages;
      multiset(GetBrokenLinks(pages, order).0)[x] ==
        if x.1 in pages && cfg.fetch(x.0).None? then Occurrences(pages[x.1], x.0) else 0
  {
    var pages := Crawl.BeginCrawl(cfg).pages;
    GetBrokenLinksBag(pages, order);
    KeysBagCount(cfg, pages, order, x);
  }

  /** After a crawl, the report holds exactly the pairs (child URL, parent
      key) of the stored child records whose fetch failed. */
  lemma BrokenAfterCrawl(cfg: Crawl.Config, order: seq<string>, x: BrokenLink)
    requires Crawl.Enumerates(order, Crawl.BeginCrawl(cfg).pages)
    ensures var pages := Crawl.BeginCrawl(cfg).pages;
      x in GetBrokenLinks(pages, order).0 <==>
        exists k, i | k in pages && 0 <= i < |pages[k]| ::
          && pages[k][i].givenURL == x.0 && k == x.1
          && cfg.fetch(x.0).None?
  {
    var st := Crawl.BeginCrawl(cfg);
    GetBrokenLinksSpec(st.pages, order, x);
    if x in GetBrokenLinks(st.pages, order).0 {
      var k, i :| k in st.pages && 0 <= i < |st.pages[k]| && x in st.pages[k][i].brokenLinks;
      assert Crawl.RecordsValid(cfg, k, st.pages[k]);
    } else {
      forall k, i | k in st.pages && 0 <= i < |st.pages[k]| && st.pages[k][i].givenURL == x.0 && k == x.1
        ensures cfg.fetch(x.0).Some?
      {
        assert Crawl.RecordsValid(cfg, k, st.pages[k]);
      }
    }
  }

  /** A seed whose fetch fails is never reported: it sits in no child list,
      and nothing else is crawled. */
  lemma FailedSeedNotReported(cfg: Crawl.Config, order: seq<string>)
    requires cfg.fetch(cfg.homeURL).None?
    requires Crawl.Enumerates(order, Crawl.BeginCrawl(cfg).pages)
    ensures GetBrokenLinks(Crawl.BeginCrawl(cfg).pages, order).0 == []
  {
    Crawl.SeedFailure(cfg);
    var pages := Crawl.BeginCrawl(cfg).pages;
    var r := GetBrokenLinks(pages, order).0;
    if r != [] {
      GetBrokenLinksSpec(pages, order, r[0]);
    }
  }
}

=== FILE: crawl.dfy ===
/** The recursive crawl of `WebCrawler` (`beginCrawl`, `crawlURL`): the
    crawler's mutable fields become an immutable `CrawlState` threaded
    through the recursion, and the network becomes the `fetch` parameter. */
module Crawl {
  import opened Wrappers
  import opened Strings
  import opened WebPages
  import opened UrlRules

  /** `fixGivenURL` as the crawl sees it: a raw link and the URL of the page
      it was found on, to the normalised link or `None` when refused. */
  type Normaliser = (string, string) -> Option<string>

  /** The constructor's arguments, with the prefix already derived, and the
      crawler's own `fixGivenURL` and `isExternalURL`, which read the
      prefix. */
  datatype Config = Config(homeURL: string, prefix: string, linksToVisit: int, fetch: Fetch,
                           normalise: Normaliser, isExternal: string -> bool)

  /** The fields `crawlURL` updates: the visit and duplicate counters, the
      map from each expanded URL to its child pages, and the external links
      in the order they were met. */
  datatype CrawlState = CrawlState(
    linksVisited: int,
    numDuplicateLinks: int,
    pages: map<string, seq<WebPage>>,
    externalLinks: seq<string>)

  /** `WebCrawler(homeURL, prefix, linksToVisit)`. */
  function NewCrawler(homeURL: string, prefixGiven: string, linksToVisit: int, fetch: Fetch): Config
  {
    var prefix := GetCorrectPrefix(homeURL, prefixGiven);
    Config(homeURL, prefix, linksToVisit, fetch,
           (link, domain) => FixGivenURL(link, domain, prefix),
           url => IsExternalURL(url, prefix))
  }

  /** The configuration normalises links with `fixGivenURL` and classifies
      them with `isExternalURL`, both under its own prefix. */
  ghost predicate SourceRules(cfg: Config)
  {
    && (forall link, domain :: cfg.normalise(link, domain) == FixGivenURL(link, domain, cfg.prefix))
    && (forall url :: cfg.isExternal(url) == IsExternalURL(url, cfg.prefix))
  }

  /** `NewCrawler` derives the prefix and follows the source's rules under
      it. */
  lemma NewCrawlerRules(homeURL: string, prefixGiven: string, linksToVisit: int, fetch: Fetch)
    ensures var cfg := NewCrawler(homeURL, prefixGiven, linksToVisit, fetch);
      && cfg.prefix == GetCorrectPrefix(homeURL, prefixGiven)
      && SourceRules(cfg)
  {
  }

  const Initial := CrawlState(0, 0, map[], [])

  function Max(a: int, b: int): int
  {
    if a < b then b else a
  }

  /** How many more links the budget allows; the crawl's termination
      measure. */
  function Remaining(cfg: Config, st: CrawlState): nat
  {
    if st.linksVisited < cfg.linksToVisit then cfg.linksToVisit - st.linksVisited else 0
  }

  /** The normalised forms of the raw links that `fixGivenURL` accepts, in
      order. */
  function Accepted(norm: Normaliser, url: string, raw: seq<string>): (r: seq<string>)
    ensures |r| <= |raw|
  {
    if raw == [] then []
    else
      match norm(raw[0], url)
      case None => Accepted(norm, url, raw[1..])
      case Some(c) => [c] + Accepted(norm, url, raw[1..])
  }

  /** The accepted links are exactly the normalised forms of the raw links
      that the normaliser does not refuse. */
  lemma {:induction false} AcceptedMembers(norm: Normaliser, url: string, raw: seq<string>, c: string)
    ensures c in Accepted(norm, url, raw) <==> exists k | 0 <= k < |raw| :: norm(raw[k], url) == Some(c)
    decreases |raw|
  {
    if raw != [] {
      AcceptedMembers(norm, url, raw[1..], c);
      if exists k | 0 <= k < |raw| :: norm(raw[k], url) == Some(c) {
        var k :| 0 <= k < |raw| && norm(raw[k], url) == Some(c);
        if k > 0 {
          assert raw[1..][k - 1] == raw[k];
        }
      }
      if exists k | 0 <= k < |raw[1..]| :: norm(raw[1..][k], url) == Some(c) {
        var k :| 0 <= k < |raw[1..]| && norm(raw[1..][k], url) == Some(c);
        assert raw[k + 1] == raw[1..][k];
      }
    }
  }

  /** Under the source's rules every accepted link starts with `http`. */
  lemma AcceptedStartHttp(cfg: Config, url: string, raw: seq<string>, c: string)
    requires SourceRules(cfg) && c in Accepted(cfg.normalise, url, raw)
    ensures StartsWith(c, "http")
  {
    AcceptedMembers(cfg.normalise, url, raw, c);
    var k :| 0 <= k < |raw| && cfg.normalise(raw[k], url) == Some(c);
    assert FixGivenURL(raw[k], url, cfg.prefix) == Some(c);
  }

  /** The accepted links that `isExternalURL` classifies as external. */
  function Externals(isExternal: string -> bool, urls: seq<string>): (r: seq<string>)
    ensures forall e | e in r :: e in urls && isExternal(e)
  {
    if urls == [] then []
    else if isExternal(urls[0]) then [urls[0]] + Externals(isExternal, urls[1..])
    else Externals(isExternal, urls[1..])
  }

  /** One child page per accepted link, found on `url`, at `distance`. */
  function ChildPages(fetch: Fetch, url: string, links: seq<string>, distance: int): (r: seq<WebPage>)
    ensures |r| == |links|
    ensures forall k | 0 <= k < |r| :: r[k] == NewPage(fetch, links[k], distance, url)
  {
    seq(|links|, k requires 0 <= k < |links| => NewPage(fetch, links[k], distance, url))
  }

  /** `r` was reached from `st`: counters only grow, stored keys keep their
      child lists, and external links are only appended. */
  ghost predicate Grows(st: CrawlState, r: CrawlState)
  {
    && st.linksVisited <= r.linksVisited
    && st.numDuplicateLinks <= r.numDuplicateLinks
    && (forall k | k in st.pages :: k in r.pages && r.pages[k] == st.pages[k])
    && StartsWith(r.externalLinks, st.externalLinks)
  }

  /** The invariant of a crawl under `cfg`: every key is in scope, every
      child record under key K names K as parent, lies at the same distance
      (at least 1) as its siblings and holds what fetching it yields, and
      every recorded external link is external. */
  ghost predicate Valid(cfg: Config, st: CrawlState)
  {
    && PagesValid(cfg, st.pages)
    && AllExternal(cfg, st.externalLinks)
  }

  /** The part of the invariant about the map of child records. */
  ghost predicate PagesValid(cfg: Config, pages: map<string, seq<WebPage>>)
  {
    forall k | k in pages :: InScope(k, cfg.prefix) && RecordsValid(cfg, k, pages[k])
  }

  /** The child records stored under key `k`. */
  ghost predicate RecordsValid(cfg: Config, k: string, recs: seq<WebPage>)
  {
    forall i | 0 <= i < |recs| ::
      && recs[i].parentURL == k
      && recs[i].distanceFromHome >= 1
      && recs[i].distanceFromHome == recs[0].distanceFromHome
      && Fetched(cfg.fetch, recs[i])
  }

  /** Every link in `ext` is external. */
  ghost predicate AllExternal(cfg: Config, ext: seq<string>)
  {
    forall e | e in ext :: cfg.isExternal(e)
  }

  datatype LoopResult = LoopResult(st: CrawlState, kids: seq<WebPage>, overran: bool)

  /** web-crawler.py lines 227-234 for one raw link inside the budget: an accepted link
      becomes a child record and, when external, is also appended to the
      external links. */
  function VisitLink(cfg: Config, st: CrawlState, url: string, link: string,
                     distance: int, kids: seq<WebPage>): (r: (CrawlState, seq<WebPage>))
    ensures r.0.pages == st.pages && r.0.numDuplicateLinks == st.numDuplicateLinks
    ensures r.0.linksVisited == st.linksVisited
    ensures r.1 == kids + ChildPages(cfg.fetch, url, Accepted(cfg.normalise, url, [link]), distance)
    ensures r.0.externalLinks == st.externalLinks + Externals(cfg.isExternal, Accepted(cfg.normalise, url, [link]))
  {
    assert [link][1..] == [];
    match cfg.normalise(link, url)
    case None => (st, kids)
    case Some(child) =>
      var st' := if cfg.isExternal(child)
                 then st.(externalLinks := st.externalLinks + [child])
                 else st;
      (st', kids + [NewPage(cfg.fetch, child, distance, url)])
  }

  /** The loop over a page's raw links (web-crawler.py lines 224-234): each link costs one
      visit, and the first link past the budget ends the loop with
      `overran` set. */
  function ChildLoop(cfg: Config, st: CrawlState, url: string, raw: seq<string>, i: nat,
                     distance: int, kids: seq<WebPage>): (r: LoopResult)
    requires i <= |raw|
    ensures r.st.pages == st.pages && r.st.numDuplicateLinks == st.numDuplicateLinks
    ensures r.overran <==> i < |raw| && st.linksVisited + (|raw| - i) > cfg.linksToVisit
    ensures r.overran ==> r.st.linksVisited == Max(st.linksVisited, cfg.linksToVisit) + 1
    ensures !r.overran ==> r.st.linksVisited == st.linksVisited + (|raw| - i)
    ensures |r.kids| <= |kids| + (|raw| - i)
    decreases |raw| - i
  {
    if i == |raw| then
      LoopResult(st, kids, false)
    else
      var st1 := st.(linksVisited := st.linksVisited + 1);
      if !(st1.linksVisited <= cfg.linksToVisit) then
        LoopResult(st1, kids, true)
      else
        var (st2, kids2) := VisitLink(cfg, st1, url, raw[i], distance, kids);
        ChildLoop(cfg, st2, url, raw, i + 1, distance, kids2)
  }

  lemma {:induction false} AcceptedAppend(norm: Normaliser, url: string, a: seq<string>, b: seq<string>)
    ensures Accepted(norm, url, a + b) == Accepted(norm, url, a) + Accepted(norm, url, b)
    decreases |a|
  {
    if a == [] {
      assert a + b == b;
    } else {
      assert (a + b)[0] == a[0] && (a + b)[1..] == a[1..] + b;
      AcceptedAppend(norm, url, a[1..], b);
    }
  }

  lemma {:induction false} ExternalsAppend(isExternal: string -> bool, a: seq<string>, b: seq<string>)
    ensures Externals(isExternal, a + b) == Externals(isExternal, a) + Externals(isExternal, b)
    decreases |a|
  {
    if a == [] {
      assert a + b == b;
    } else {
      assert (a + b)[0] == a[0] && (a + b)[1..] == a[1..] + b;
      ExternalsAppend(isExternal, a[1..], b);
    }
  }

  lemma ChildPagesAppend(fetch: Fetch, url: string, a: seq<string>, b: seq<string>, distance: int)
    ensures ChildPages(fetch, url, a + b, distance) == ChildPages(fetch, url, a, distance) + ChildPages(fetch, url, b, distance)
  {
  }

  /** A loop that stays within the budget produces exactly one child record
      per accepted link, in order, and appends exactly the external ones to
      the external links. */
  lemma ChildLoopRecords(cfg: Config, st: CrawlState, url: string, raw: seq<string>,
                         i: nat, distance: int, kids: seq<WebPage>)
    requires i <= |raw|
    ensures var r := ChildLoop(cfg, st, url, raw, i, distance, kids);
      !r.overran ==>
        && r.kids == kids + ChildPages(cfg.fetch, url, Accepted(cfg.normalise, url, raw[i..]), distance)
        && r.st.externalLinks == st.externalLinks + Externals(cfg.isExternal, Accepted(cfg.normalise, url, raw[i..]))
  {
    ChildLoopKids(cfg, st, url, raw, i, distance, kids);
    ChildLoopExtList(cfg, st, url, raw, i, distance, kids);
  }

  lemma {:induction false} ChildLoopKids(cfg: Config, st: CrawlState, url: string, raw: seq<string>,
                                         i: nat, distance: int, kids: seq<WebPage>)
    requires i <= |raw|
    ensures var r := ChildLoop(cfg, st, url, raw, i, distance, kids);
      !r.overran ==> r.kids == kids + ChildPages(cfg.fetch, url, Accepted(cfg.normalise, url, raw[i..]), distance)
    decreases |raw| - i
  {
    if i < |raw| && st.linksVisited + 1 <= cfg.linksToVisit {
      var st1 := st.(linksVisited := st.linksVisited + 1);
      var (st2, kids2) := VisitLink(cfg, st1, url, raw[i], distance, kids);
      ChildLoopKids(cfg, st2, url, raw, i + 1, distance, kids2);
      var head := Accepted(cfg.normalise, url, [raw[i]]);
      var rest := Accepted(cfg.normalise, url, raw[i + 1..]);
      assert raw[i..] == [raw[i]] + raw[i + 1..];
      AcceptedAppend(cfg.normalise, url, [raw[i]], raw[i + 1..]);
      ChildPagesAppend(cfg.fetch, url, head, rest, distance);
    }
  }

  lemma {:induction false} ChildLoopExtList(cfg: Config, st: CrawlState, url: string, raw: seq<string>,
                                            i: nat, distance: int, kids: seq<WebPage>)
    requires i <= |raw|
    ensures var r := ChildLoop(cfg, st, url, raw, i, distance, kids);
      !r.overran ==> r.st.externalLinks == st.externalLinks + Externals(cfg.isExternal, Accepted(cfg.normalise, url, raw[i..]))
    decreases |raw| - i
  {
    if i < |raw| && st.linksVisited + 1 <= cfg.linksToVisit {
      var st1 := st.(linksVisited := st.linksVisited + 1);
      var (st2, kids2) := VisitLink(cfg, st1, url, raw[i], distance, kids);
      ChildLoopExtList(cfg, st2, url, raw, i + 1, distance, kids2);
      var head := Accepted(cfg.normalise, url, [raw[i]]);
      var rest := Accepted(cfg.normalise, url, raw[i + 1..]);
      assert raw[i..] == [raw[i]] + raw[i + 1..];
      AcceptedAppend(cfg.normalise, url, [raw[i]], raw[i + 1..]);
      ExternalsAppend(cfg.isExternal, head, rest);
    }
  }

  /** Whatever the budget, the loop only appends to the external links. */
  lemma {:induction false} ChildLoopAppends(cfg: Config, st: CrawlState, url: string, raw: seq<string>,
                                            i: nat, distance: int, kids: seq<WebPage>)
    requires i <= |raw|
    ensures StartsWith(ChildLoop(cfg, st, url, raw, i, distance, kids).st.externalLinks, st.externalLinks)
    decreases |raw| - i
  {
    if i < |raw| && st.linksVisited + 1 <= cfg.linksToVisit {
      var st1 := st.(linksVisited := st.linksVisited + 1);
      var (st2, kids2) := VisitLink(cfg, st1, url, raw[i], distance, kids);
      ChildLoopAppends(cfg, st2, url, raw, i + 1, distance, kids2);
      assert StartsWith(st2.externalLinks, st.externalLinks);
      StartsWithTrans(ChildLoop(cfg, st2, url, raw, i + 1, distance, kids2).st.externalLinks, st2.externalLinks, st.externalLinks);
    }
  }

  /** Whatever the budget, everything the loop appends is external. */
  lemma {:induction false} ChildLoopExternals(cfg: Config, st: CrawlState, url: string, raw: seq<string>,
                                              i: nat, distance: int, kids: seq<WebPage>)
    requires i <= |raw|
    requires AllExternal(cfg, st.externalLinks)
    ensures AllExternal(cfg, ChildLoop(cfg, st, url, raw, i, distance, kids).st.externalLinks)
    decreases |raw| - i
  {
    if i < |raw| && st.linksVisited + 1 <= cfg.linksToVisit {
      var st1 := st.(linksVisited := st.linksVisited + 1);
      var (st2, kids2) := VisitLink(cfg, st1, url, raw[i], distance, kids);
      ChildLoopExternals(cfg, st2, url, raw, i + 1, distance, kids2);
    }
  }

  /** `crawlURL(page, counter)`. An out-of-scope page is ignored; a page
      whose URL is already a key only bumps the duplicate counter; otherwise
      its child loop runs, and unless that loop overran the budget the
      child list is stored under the URL and the children are crawled depth
      first. */
  function CrawlURL(cfg: Config, st: CrawlState, page: WebPage, counter: nat): (r: CrawlState)
    ensures st.linksVisited <= r.linksVisited
    decreases Remaining(cfg, st), 1, 0
  {
    var url := page.givenURL;
    if !InScope(url, cfg.prefix) then st
    else if url in st.pages then st.(numDuplicateLinks := st.numDuplicateLinks + 1)
    else
      var loop := ChildLoop(cfg, st, url, page.children, 0, counter + 1, []);
      if loop.overran then loop.st
      else
        var stored := loop.st.(pages := loop.st.pages[url := loop.kids]);
        CrawlChildren(cfg, stored, loop.kids, 0, counter + 1, Remaining(cfg, st))
  }

  /** The loop of web-crawler.py lines 237-241: crawl each stored child in turn while the
      budget still has room, and stop for good once it has none. The source
      reads the children back from the map; they are the list just stored,
      since a stored key is never overwritten. */
  function CrawlChildren(cfg: Config, st: CrawlState, kids: seq<WebPage>, i: nat, counter: nat,
                         ghost bound: nat): (r: CrawlState)
    requires i <= |kids|
    requires i < |kids| ==> Remaining(cfg, st) < bound
    ensures st.linksVisited <= r.linksVisited
    decreases bound, 0, |kids| - i
  {
    if i == |kids| then st
    else if cfg.linksToVisit - st.linksVisited > 0 then
      var next := CrawlURL(cfg, st, kids[i], counter);
      CrawlChildren(cfg, next, kids, i + 1, counter, bound)
    else st
  }

  lemma GrowsTrans(a: CrawlState, b: CrawlState, c: CrawlState)
    requires Grows(a, b) && Grows(b, c)
    ensures Grows(a, c)
  {
    StartsWithTrans(c.externalLinks, b.externalLinks, a.externalLinks);
  }

  /** What one `crawlURL` call may change: counters only grow, and by at
      most the budget allows; a stored key keeps its child list; external
      links are only appended; every duplicate counted is paid for by a
      visit (except the call's own page, when it is the duplicate); and once
      the budget is used up nothing is crawled beyond the page itself. */
  lemma {:induction false} CrawlURLGrows(cfg: Config, st: CrawlState, page: WebPage, counter: nat)
    ensures var r := CrawlURL(cfg, st, page, counter);
      && Grows(st, r)
      && r.linksVisited <= Max(st.linksVisited, cfg.linksToVisit) + 1
      && (!(InScope(page.givenURL, cfg.prefix) && page.givenURL in st.pages) ==>
            r.numDuplicateLinks - st.numDuplicateLinks <= r.linksVisited - st.linksVisited)
      && r.numDuplicateLinks - st.numDuplicateLinks <= r.linksVisited - st.linksVisited + 1
      && (st.linksVisited >= cfg.linksToVisit ==>
            r.externalLinks == st.externalLinks && r.pages.Keys <= st.pages.Keys + {page.givenURL})
    decreases Remaining(cfg, st), 1, 0
  {
    var url := page.givenURL;
    if InScope(url, cfg.prefix) && url !in st.pages {
      var loop := ChildLoop(cfg, st, url, page.children, 0, counter + 1, []);
      ChildLoopAppends(cfg, st, url, page.children, 0, counter + 1, []);
      assert Grows(st, loop.st);
      if !loop.overran {
        var stored := loop.st.(pages := loop.st.pages[url := loop.kids]);
        assert Grows(loop.st, stored);
        CrawlChildrenGrows(cfg, stored, loop.kids, 0, counter + 1, Remaining(cfg, st));
        GrowsTrans(loop.st, stored, CrawlChildren(cfg, stored, loop.kids, 0, counter + 1, Remaining(cfg, st)));
        GrowsTrans(st, loop.st, CrawlChildren(cfg, stored, loop.kids, 0, counter + 1, Remaining(cfg, st)));
      }
    }
  }

  lemma {:induction false} CrawlChildrenGrows(cfg: Config, st: CrawlState, kids: seq<WebPage>, i: nat,
                                              counter: nat, bound: nat)
    requires i <= |kids|
    requires i < |kids| ==> Remaining(cfg, st) < bound
    ensures var r := CrawlChildren(cfg, st, kids, i, counter, bound);
      && Grows(st, r)
      && r.linksVisited <= Max(st.linksVisited, cfg.linksToVisit + 1)
      && r.numDuplicateLinks - st.numDuplicateLinks <= r.linksVisited - st.linksVisited + (|kids| - i)
      && (st.linksVisited >= cfg.linksToVisit ==> r == st)
    decreases bound, 0, |kids| - i
  {
    if i < |kids| && cfg.linksToVisit - st.linksVisited > 0 {
      var next := CrawlURL(cfg, st, kids[i], counter);
      CrawlURLGrows(cfg, st, kids[i], counter);
      CrawlChildrenGrows(cfg, next, kids, i + 1, counter, bound);
      GrowsTrans(st, next, CrawlChildren(cfg, next, kids, i + 1, counter, bound));
    }
  }

  /** `crawlURL` preserves the crawl invariant. */
  lemma {:induction false} CrawlURLValid(cfg: Config, st: CrawlState, page: WebPage, counter: nat)
    requires Valid(cfg, st)
    ensures Valid(cfg, CrawlURL(cfg, st, page, counter))
    decreases Remaining(cfg, st), 2, 0
  {
    var url := page.givenURL;
    if InScope(url, cfg.prefix) && url !in st.pages {
      ExpandUnfolds(cfg, st, page, counter);
      var loop := ChildLoop(cfg, st, url, page.children, 0, counter + 1, []);
      if loop.overran {
        ChildLoopExternals(cfg, st, url, page.children, 0, counter + 1, []);
      } else {
        ExpandValid(cfg, st, page, counter);
      }
    }
  }

  /** The expanding branch of `crawlURL`, when its loop stays within the
      budget, preserves the crawl invariant. */
  lemma {:induction false} ExpandValid(cfg: Config, st: CrawlState, page: WebPage, counter: nat)
    requires Valid(cfg, st)
    requires InScope(page.givenURL, cfg.prefix) && page.givenURL !in st.pages
    ensures var url := page.givenURL;
      var loop := ChildLoop(cfg, st, url, page.children, 0, counter + 1, []);
      var stored := loop.st.(pages := loop.st.pages[url := loop.kids]);
      !loop.overran ==> Valid(cfg, CrawlChildren(cfg, stored, loop.kids, 0, counter + 1, Remaining(cfg, st)))
    decreases Remaining(cfg, st), 1, 0
  {
    var url := page.givenURL;
    var loop := ChildLoop(cfg, st, url, page.children, 0, counter + 1, []);
    if !loop.overran {
      StoredShrinksBudget(cfg, st, url, page.children, counter + 1);
      StoreLoopResult(cfg, st, url, page.children, counter + 1);
      var stored := loop.st.(pages := loop.st.pages[url := loop.kids]);
      CrawlChildrenValid(cfg, stored, loop.kids, 0, counter + 1, Remaining(cfg, st));
    }
  }

  /** A loop within the budget that produced children used up some of it. */
  lemma StoredShrinksBudget(cfg: Config, st: CrawlState, url: string, raw: seq<string>, distance: nat)
    ensures var loop := ChildLoop(cfg, st, url, raw, 0, distance, []);
      var stored := loop.st.(pages := loop.st.pages[url := loop.kids]);
      !loop.overran && 0 < |loop.kids| ==> Remaining(cfg, stored) < Remaining(cfg, st)
  {
  }

  /** The expanding branch of `crawlURL`, unfolded: the overrun loop's state,
      or the children crawled from the state with the child list stored. */
  lemma ExpandUnfolds(cfg: Config, st: CrawlState, page: WebPage, counter: nat)
    requires InScope(page.givenURL, cfg.prefix) && page.givenURL !in st.pages
    ensures var url := page.givenURL;
      var loop := ChildLoop(cfg, st, url, page.children, 0, counter + 1, []);
      var stored := loop.st.(pages := loop.st.pages[url := loop.kids]);
      && (loop.overran ==> CrawlURL(cfg, st, page, counter) == loop.st)
      && (!loop.overran ==>
            && CrawlURL(cfg, st, page, counter) == CrawlChildren(cfg, stored, loop.kids, 0, counter + 1, Remaining(cfg, st)))
  {
  }

  /** A page's child loop, finished within the budget and stored under the
      page's in-scope URL, keeps the invariant. */
  lemma StoreLoopResult(cfg: Config, st: CrawlState, url: string, raw: seq<string>, distance: nat)
    requires Valid(cfg, st) && InScope(url, cfg.prefix) && distance >= 1
    ensures var loop := ChildLoop(cfg, st, url, raw, 0, distance, []);
      !loop.overran ==> Valid(cfg, loop.st.(pages := loop.st.pages[url := loop.kids]))
  {
    var loop := ChildLoop(cfg, st, url, raw, 0, distance, []);
    ChildLoopExternals(cfg, st, url, raw, 0, distance, []);
    assert Valid(cfg, loop.st);
    if !loop.overran {
      ChildLoopRecords(cfg, st, url, raw, 0, distance, []);
      var links := Accepted(cfg.normalise, url, raw[0..]);
      assert loop.kids == ChildPages(cfg.fetch, url, links, distance);
      StoreChildPages(cfg, loop.st, url, links, distance);
    }
  }

  /** Storing the child pages of an in-scope URL keeps the invariant. */
  lemma StoreChildPages(cfg: Config, st: CrawlState, url: string, links: seq<string>, distance: nat)
    requires Valid(cfg, st) && InScope(url, cfg.prefix) && distance >= 1
    ensures Valid(cfg, st.(pages := st.pages[url := ChildPages(cfg.fetch, url, links, distance)]))
  {
  }

  lemma {:induction false} CrawlChildrenValid(cfg: Config, st: CrawlState, kids: seq<WebPage>, i: nat,
                                              counter: nat, bound: nat)
    requires i <= |kids|
    requires i < |kids| ==> Remaining(cfg, st) < bound
    requires Valid(cfg, st)
    ensures Valid(cfg, CrawlChildren(cfg, st, kids, i, counter, bound))
    decreases bound, 0, |kids| - i
  {
    if i < |kids| && cfg.linksToVisit - st.linksVisited > 0 {
      CrawlURLValid(cfg, st, kids[i], counter);
      CrawlChildrenValid(cfg, CrawlURL(cfg, st, kids[i], counter), kids, i + 1, counter, bound);
    }
  }

  /** One `crawlURL` call on its own page: an out-of-scope page changes
      nothing; re-reaching a stored key changes only the duplicate counter;
      a new in-scope page gets a map entry exactly when its raw links fit in
      the remaining budget, and that entry holds one record per accepted
      link, in order, each with the page as parent and distance
      `counter + 1`. */
  lemma CrawlURLStores(cfg: Config, st: CrawlState, page: WebPage, counter: nat)
    ensures var r := CrawlURL(cfg, st, page, counter);
      var url := page.givenURL;
      && (!InScope(url, cfg.prefix) ==> r == st)
      && (InScope(url, cfg.prefix) && url in st.pages ==>
            r == st.(numDuplicateLinks := st.numDuplicateLinks + 1))
      && (InScope(url, cfg.prefix) && url !in st.pages ==>
            (url in r.pages <==> page.children == [] || st.linksVisited + |page.children| <= cfg.linksToVisit))
      && (InScope(url, cfg.prefix) && url !in st.pages && url in r.pages ==>
            r.pages[url] == ChildPages(cfg.fetch, url, Accepted(cfg.normalise, url, page.children), counter + 1))
  {
    var url := page.givenURL;
    if InScope(url, cfg.prefix) && url !in st.pages {
      var loop := ChildLoop(cfg, st, url, page.children, 0, counter + 1, []);
      if !loop.overran {
        ChildLoopRecords(cfg, st, url, page.children, 0, counter + 1, []);
        assert page.children[0..] == page.children;
        var stored := loop.st.(pages := loop.st.pages[url := loop.kids]);
        CrawlChildrenGrows(cfg, stored, loop.kids, 0, counter + 1, Remaining(cfg, st));
      }
    }
  }

  /** `beginCrawl`: build the home page at distance 0 with an empty parent
      and crawl it. */
  function BeginCrawl(cfg: Config): (r: CrawlState)
    ensures Valid(cfg, r)
    ensures cfg.linksToVisit >= 0 ==> r.linksVisited <= cfg.linksToVisit + 1
    ensures 0 <= r.numDuplicateLinks <= r.linksVisited
  {
    var home := NewPage(cfg.fetch, cfg.homeURL, 0, "");
    CrawlURLValid(cfg, Initial, home, 0);
    CrawlURLGrows(cfg, Initial, home, 0);
    CrawlURL(cfg, Initial, home, 0)
  }

  /** A crawl whose seed cannot be fetched visits nothing: the seed, when in
      scope, is stored with no children, and nothing else happens. */
  lemma SeedFailure(cfg: Config)
    requires cfg.fetch(cfg.homeURL).None?
    ensures var r := BeginCrawl(cfg);
      && r.linksVisited == 0 && r.numDuplicateLinks == 0 && r.externalLinks == []
      && r.pages == (if InScope(cfg.homeURL, cfg.prefix) then map[cfg.homeURL := []] else map[])
  {
    var home := NewPage(cfg.fetch, cfg.homeURL, 0, "");
    assert home.children == [];
    if InScope(cfg.homeURL, cfg.prefix) {
      var loop := ChildLoop(cfg, Initial, cfg.homeURL, [], 0, 1, []);
      assert loop == LoopResult(Initial, [], false);
      var stored := Initial.(pages := map[cfg.homeURL := []]);
      assert CrawlChildren(cfg, stored, [], 0, 1, Remaining(cfg, Initial)) == stored;
      assert CrawlURL(cfg, Initial, home, 0) == stored;
    }
  }

  /** Scope closure: under the invariant no recorded external link is a map
      key, so no external page is ever expanded. */
  lemma ExternalNeverKey(cfg: Config, st: CrawlState, e: string)
    requires SourceRules(cfg) && Valid(cfg, st) && e in st.externalLinks
    ensures e !in st.pages
  {
    if e in st.pages {
      InScopeIsNotExternal(e, cfg.prefix);
    }
  }

  /** `getNumLinksCrawled`. */
  function GetNumLinksCrawled(st: CrawlState): int
  {
    st.linksVisited - st.numDuplicateLinks
  }

  /** After a crawl the number of links crawled is never negative and, with
      a non-negative budget, exceeds the budget by at most one. */
  lemma NumLinksCrawledBounds(cfg: Config)
    ensures var n := GetNumLinksCrawled(BeginCrawl(cfg));
      && 0 <= n
      && (cfg.linksToVisit >= 0 ==> n <= cfg.linksToVisit + 1)
  {
  }

  /** The accounting behind `getNumLinksCrawled`: every page one
      `crawlURL` call stores and every duplicate it counts is paid for by a
      visit, except the call's own page. */
  lemma {:induction false} CrawlURLCounts(cfg: Config, st: CrawlState, page: WebPage, counter: nat)
    ensures var r := CrawlURL(cfg, st, page, counter);
      |r.pages| - |st.pages| + r.numDuplicateLinks - st.numDuplicateLinks <= r.linksVisited - st.linksVisited + 1
    decreases Remaining(cfg, st), 1, 0
  {
    var url := page.givenURL;
    if InScope(url, cfg.prefix) && url !in st.pages {
      var loop := ChildLoop(cfg, st, url, page.children, 0, counter + 1, []);
      if !loop.overran {
        var stored := loop.st.(pages := loop.st.pages[url := loop.kids]);
        assert |stored.pages| == |st.pages| + 1;
        StoredShrinksBudget(cfg, st, url, page.children, counter + 1);
        CrawlChildrenCounts(cfg, stored, loop.kids, 0, counter + 1, Remaining(cfg, st));
      }
    }
  }

  /** The same accounting over the stored children: each child still to be
      crawled was paid for by a visit of its parent's loop. */
  lemma {:induction false} CrawlChildrenCounts(cfg: Config, st: CrawlState, kids: seq<WebPage>, i: nat,
                                               counter: nat, bound: nat)
    requires i <= |kids|
    requires i < |kids| ==> Remaining(cfg, st) < bound
    ensures var r := CrawlChildren(cfg, st, kids, i, counter, bound);
      |r.pages| - |st.pages| + r.numDuplicateLinks - st.numDuplicateLinks <= r.linksVisited - st.linksVisited + (|kids| - i)
    decreases bound, 0, |kids| - i
  {
    if i < |kids| && cfg.linksToVisit - st.linksVisited > 0 {
      CrawlURLCounts(cfg, st, kids[i], counter);
      CrawlChildrenCounts(cfg, CrawlURL(cfg, st, kids[i], counter), kids, i + 1, counter, bound);
    }
  }

  /** `getNumLinksCrawled` bounds the pages expanded: the map has at most
      one key more than the count (the home page). */
  lemma NumLinksCrawledCoversKeys(cfg: Config)
    ensures |BeginCrawl(cfg).pages| <= GetNumLinksCrawled(BeginCrawl(cfg)) + 1
  {
    CrawlURLCounts(cfg, Initial, NewPage(cfg.fetch, cfg.homeURL, 0, ""), 0);
  }

  /** The seed is never counted: a home page `h` with no raw links is
      expanded, yet the count is 0. */
  lemma SeedNotCounted()
    ensures var fetch: Fetch := u => Some([]);
      var cfg := NewCrawler("h", "", 10, fetch);
      var r := BeginCrawl(cfg);
      r.pages.Keys == {"h"} && GetNumLinksCrawled(r) == 0
  {
    var fetch: Fetch := u => Some([]);
    var cfg := NewCrawler("h", "", 10, fetch);
    assert HostPart("h") == "h";
    assert cfg.prefix == "h";
    assert InScope("h", cfg.prefix) by {
      ContainsWitness("h", "h", 0);
    }
    var home := NewPage(fetch, "h", 0, "");
    assert home.children == [];
    var loop := ChildLoop(cfg, Initial, "h", home.children, 0, 1, []);
    assert loop == LoopResult(Initial, [], false);
    var stored := Initial.(pages := map["h" := []]);
    assert CrawlChildren(cfg, stored, [], 0, 1, Remaining(cfg, Initial)) == stored;
    assert BeginCrawl(cfg) == stored;
  }

  /** The count is not a count of pages: every raw link examined is a visit,
      refused ones included. A home page `h` whose only links are `#a` and
      `#b` is the only page expanded, yet two links are counted. */
  lemma RejectedLinksCounted()
    ensures var fetch: Fetch := u => if u == "h" then Some(["#a", "#b"]) else None;
      var cfg := NewCrawler("h", "", 10, fetch);
      var r := BeginCrawl(cfg);
      r.pages.Keys == {"h"} && GetNumLinksCrawled(r) == 2
  {
    var fetch: Fetch := u => if u == "h" then Some(["#a", "#b"]) else None;
    var cfg := NewCrawler("h", "", 10, fetch);
    NewCrawlerRules("h", "", 10, fetch);
    assert HostPart("h") == "h";
    assert cfg.prefix == "h";
    assert InScope("h", cfg.prefix) by {
      ContainsWitness("h", "h", 0);
    }
    assert cfg.normalise("#a", "h") == None;
    assert cfg.normalise("#b", "h") == None;
    var home := NewPage(fetch, "h", 0, "");
    assert home.children == ["#a", "#b"];
    var loop := ChildLoop(cfg, Initial, "h", home.children, 0, 1, []);
    assert loop.kids == [] && loop.st.linksVisited == 2 && !loop.overran;
    var stored := loop.st.(pages := map["h" := []]);
    assert CrawlChildren(cfg, stored, [], 0, 1, Remaining(cfg, Initial)) == stored;
    assert BeginCrawl(cfg) == stored;
  }

  /** `getExternalLinks`. */
  function GetExternalLinks(st: CrawlState): seq<string>
  {
    st.externalLinks
  }

  /** After a crawl every reported external link is external under the
      crawler's prefix and was never expanded. */
  lemma ExternalLinksAfterCrawl(cfg: Config, e: string)
    requires SourceRules(cfg) && e in GetExternalLinks(BeginCrawl(cfg))
    ensures IsExternalURL(e, cfg.prefix) && e !in BeginCrawl(cfg).pages
  {
    ExternalNeverKey(cfg, BeginCrawl(cfg), e);
  }

  /** `order` lists every key of `pages` exactly once: the dictionary
      iteration order of the source, which the model takes as an input. */
  ghost predicate Enumerates(order: seq<string>, pages: map<string, seq<WebPage>>)
  {
    && (forall k | k in order :: k in pages)
    && (forall k | k in pages :: k in order)
    && Distinct(order)
  }

  /** The keys of `order` are pairwise distinct. */
  ghost predicate Distinct(order: seq<string>)
  {
    forall a, b | 0 <= a < b < |order| :: order[a] != order[b]
  }

  /** The child records of the keys in `order`, one key after another. */
  function Flatten(pages: map<string, seq<WebPage>>, order: seq<string>): (r: seq<WebPage>)
    requires forall k | k in order :: k in pages
    ensures forall x | x in r :: exists k | k in order :: x in pages[k]
    ensures forall k, x | k in order && x in pages[k] :: x in r
  {
    if order == [] then [] else pages[order[0]] + Flatten(pages, order[1..])
  }

  /** Every record of a flattened valid map was fetched and lies at a
      distance of at least 1. */
  lemma FlattenValid(cfg: Config, st: CrawlState, order: seq<string>, x: WebPage)
    requires Valid(cfg, st) && (forall k | k in order :: k in st.pages)
    requires x in Flatten(st.pages, order)
    ensures x.distanceFromHome >= 1 && Fetched(cfg.fetch, x)
  {
    var k :| k in order && x in st.pages[k];
    assert RecordsValid(cfg, k, st.pages[k]);
  }
}

=== FILE: max_distance.dfy ===
/** `getMaxDistancePath`: the pairwise pass over the flattened child records
    that gives every record the smallest distance found for its URL and
    tracks the largest distance met along the way. The flattening order
    (dictionary order in the source) is the order of the input sequence. */
module MaxDistance {
  import opened Wrappers
  import opened WebPages
  import Crawl

  /** The records the pass works on, the crawler's `maxDistance`, and the
      one-element path list once some record has raised `maxDistance`
      (`None` where the source would raise `UnboundLocalError`). */
  datatype Pass = Pass(recs: seq<WebPage>, maxDistance: int, path: Option<seq<string>>)

  /** The URLs of the records, in order. */
  function Urls(recs: seq<WebPage>): (r: seq<string>)
    ensures |r| == |recs| && forall k | 0 <= k < |recs| :: r[k] == recs[k].givenURL
  {
    seq(|recs|, k requires 0 <= k < |recs| => recs[k].givenURL)
  }

  function Min(a: int, b: int): int
  {
    if a < b then a else b
  }

  /** The index of a record with URL `u` of least distance, scanning from
      `i` on with `best` the best so far (-1 for none yet); -1 when no
      record has URL `u`. */
  function ArgMin(recs: seq<WebPage>, u: string, i: nat, best: int): (r: int)
    requires i <= |recs| && -1 <= best < |recs| && (best >= 0 ==> recs[best].givenURL == u)
    ensures -1 <= r < |recs| && (r >= 0 ==> recs[r].givenURL == u)
    decreases |recs| - i
  {
    if i == |recs| then best
    else if recs[i].givenURL == u && (best < 0 || recs[i].distanceFromHome < recs[best].distanceFromHome) then
      ArgMin(recs, u, i + 1, i)
    else
      ArgMin(recs, u, i + 1, best)
  }

  /** The least distance among the records with URL `u`. */
  function MinDistance(recs: seq<WebPage>, u: string): int
  {
    var w := ArgMin(recs, u, 0, -1);
    if w < 0 then 0 else recs[w].distanceFromHome
  }

  lemma {:induction false} ArgMinLeast(recs: seq<WebPage>, u: string, i: nat, best: int, l: nat)
    requires i <= |recs| && -1 <= best < |recs| && (best >= 0 ==> recs[best].givenURL == u)
    requires l < |recs| && recs[l].givenURL == u
    requires l < i ==> best >= 0 && recs[best].distanceFromHome <= recs[l].distanceFromHome
    ensures var r := ArgMin(recs, u, i, best);
      r >= 0 && recs[r].distanceFromHome <= recs[l].distanceFromHome
    decreases |recs| - i
  {
    if i < |recs| {
      if recs[i].givenURL == u && (best < 0 || recs[i].distanceFromHome < recs[best].distanceFromHome) {
        ArgMinLeast(recs, u, i + 1, i, l);
      } else {
        ArgMinLeast(recs, u, i + 1, best, l);
      }
    }
  }

  /** `MinDistance` is a lower bound of the distances of the records with
      that URL, and one of them attains it. */
  lemma MinDistanceLeast(recs: seq<WebPage>, l: nat)
    requires l < |recs|
    ensures var u := recs[l].givenURL;
      var w := ArgMin(recs, u, 0, -1);
      && 0 <= w < |recs| && recs[w].givenURL == u
      && MinDistance(recs, u) == recs[w].distanceFromHome <= recs[l].distanceFromHome
  {
    ArgMinLeast(recs, recs[l].givenURL, 0, -1, l);
  }

  /** Record `p` with its distance replaced by `d`. */
  function WithDistance(p: WebPage, d: int): WebPage
  {
    p.(distanceFromHome := d)
  }

  /** Inner loop of web-crawler.py lines 306-314 for record `i`, from column `j` on: for
      every record `j` with the same URL both take the smaller of the two
      distances, and a distance of record `i` above `maxDistance` becomes
      the new maximum with record `i`'s URL as the path. */
  function Inner(p: Pass, i: nat, j: nat): (r: Pass)
    requires i < |p.recs| && j <= |p.recs|
    ensures |r.recs| == |p.recs|
    decreases |p.recs| - j
  {
    if j == |p.recs| then p
    else if p.recs[j].givenURL == p.recs[i].givenURL then
      Inner(Step(p, i, j), i, j + 1)
    else
      Inner(p, i, j + 1)
  }

  /** web-crawler.py lines 308-314 for records `i` and `j` with the same URL. */
  function Step(p: Pass, i: nat, j: nat): (r: Pass)
    requires i < |p.recs| && j < |p.recs|
    ensures |r.recs| == |p.recs|
  {
    var m := Min(p.recs[i].distanceFromHome, p.recs[j].distanceFromHome);
    var half := p.recs[j := WithDistance(p.recs[j], m)];
    var recs := half[i := WithDistance(half[i], m)];
    if m > p.maxDistance then Pass(recs, m, Some([recs[i].givenURL])) else p.(recs := recs)
  }

  /** Outer loop of web-crawler.py lines 305-314, from row `i` on. */
  function Outer(p: Pass, i: nat): (r: Pass)
    requires i <= |p.recs|
    ensures |r.recs| == |p.recs|
    decreases |p.recs| - i
  {
    if i == |p.recs| then p else Outer(Inner(p, i, 0), i + 1)
  }

  /** `getMaxDistancePath` on the flattened records, with the crawler's
      current `maxDistance` (0 for a fresh crawler). */
  function GetMaxDistancePath(recs: seq<WebPage>, maxDistance: int): Pass
  {
    Outer(Pass(recs, maxDistance, None), 0)
  }

  /** What holds of the pass at every step: records keep everything but
      their distance, which only falls and never below the least distance
      of the URL; `maxDistance` only rises, and the path exists exactly
      when it rose, naming one of the URLs. */
  ghost predicate Inv(orig: seq<WebPage>, max0: int, p: Pass)
  {
    && |p.recs| == |orig|
    && (forall k | 0 <= k < |orig| ::
          && p.recs[k] == WithDistance(orig[k], p.recs[k].distanceFromHome)
          && MinDistance(orig, orig[k].givenURL) <= p.recs[k].distanceFromHome <= orig[k].distanceFromHome)
    && max0 <= p.maxDistance
    && (p.path.Some? <==> p.maxDistance > max0)
    && (p.path.Some? ==> |p.path.value| == 1 && p.path.value[0] in Urls(orig))
  }

  /** Records below `i` are settled at the least distance of their URL and
      no greater than `maxDistance`. */
  ghost predicate Settled(orig: seq<WebPage>, p: Pass, i: nat)
    requires |p.recs| == |orig| && i <= |orig|
  {
    forall k | 0 <= k < i ::
      p.recs[k].distanceFromHome == MinDistance(orig, orig[k].givenURL) && p.recs[k].distanceFromHome <= p.maxDistance
  }

  /** The inner loop for row `i` from column `j` on keeps the invariant
      and settles record `i`: each column with the same URL pulls record
      `i` down to at most that column's original distance, and column `i`
      itself brings `maxDistance` up to record `i`'s distance. */
  lemma {:induction false} InnerInv(orig: seq<WebPage>, max0: int, p: Pass, i: nat, j: nat)
    requires Inv(orig, max0, p) && i < |orig| && j <= |orig|
    requires Settled(orig, p, i)
    requires j > i ==> p.recs[i].distanceFromHome <= p.maxDistance
    requires forall l | 0 <= l < j && orig[l].givenURL == orig[i].givenURL ::
      p.recs[i].distanceFromHome <= orig[l].distanceFromHome
    ensures var r := Inner(p, i, j);
      && Inv(orig, max0, r)
      && Settled(orig, r, i + 1)
    decreases |orig| - j
  {
    if j == |orig| {
      MinDistanceLeast(orig, i);
    } else if p.recs[j].givenURL == p.recs[i].givenURL {
      StepInv(orig, max0, p, i, j);
      var p' := Step(p, i, j);
      InnerInv(orig, max0, p', i, j + 1);
    } else {
      InnerInv(orig, max0, p, i, j + 1);
    }
  }

  /** One step for records `i` and `j` with the same URL keeps the
      invariant and the settled rows, leaves record `i` no greater than
      `maxDistance` and no greater than record `j`'s original distance. */
  lemma StepInv(orig: seq<WebPage>, max0: int, p: Pass, i: nat, j: nat)
    requires Inv(orig, max0, p) && i < |orig| && j < |orig|
    requires Settled(orig, p, i)
    requires p.recs[j].givenURL == p.recs[i].givenURL
    ensures var r := Step(p, i, j);
      && Inv(orig, max0, r)
      && Settled(orig, r, i)
      && r.recs[i].distanceFromHome <= r.maxDistance
      && r.recs[i].distanceFromHome <= p.recs[i].distanceFromHome
      && r.recs[i].distanceFromHome <= orig[j].distanceFromHome
  {
    assert Urls(orig)[i] == orig[i].givenURL;
  }

  /** The outer loop from row `i` on keeps the invariant and settles every
      record. */
  lemma {:induction false} OuterInv(orig: seq<WebPage>, max0: int, p: Pass, i: nat)
    requires Inv(orig, max0, p) && i <= |orig| && Settled(orig, p, i)
    ensures var r := Outer(p, i);
      Inv(orig, max0, r) && Settled(orig, r, |orig|)
    decreases |orig| - i
  {
    if i < |orig| {
      InnerInv(orig, max0, p, i, 0);
      OuterInv(orig, max0, Inner(p, i, 0), i + 1);
    }
  }

  /** The pass as a whole: every record ends at the least distance found
      for its URL and is otherwise unchanged; `maxDistance` never falls and
      ends at least as large as every record's distance; and a path exists,
      as a one-element list naming one of the URLs, exactly when
      `maxDistance` rose. */
  lemma GetMaxDistancePathSpec(recs: seq<WebPage>, max0: int)
    ensures var r := GetMaxDistancePath(recs, max0);
      && |r.recs| == |recs|
      && (forall k | 0 <= k < |recs| ::
            r.recs[k] == WithDistance(recs[k], MinDistance(recs, recs[k].givenURL)))
      && max0 <= r.maxDistance
      && (forall k | 0 <= k < |recs| :: r.recs[k].distanceFromHome <= r.maxDistance)
      && (r.path.Some? <==> r.maxDistance > max0)
      && (r.path.Some? ==> |r.path.value| == 1 && r.path.value[0] in Urls(recs))
  {
    forall k | 0 <= k < |recs|
      ensures MinDistance(recs, recs[k].givenURL) <= recs[k].distanceFromHome
    {
      MinDistanceLeast(recs, k);
    }
    OuterInv(recs, max0, Pass(recs, max0, None), 0);
  }

  /** Run on a fresh crawler (`maxDistance` 0) over records at distance at
      least 1, the pass yields a path exactly when there is a record; with
      none, the source raises `UnboundLocalError`. */
  lemma PathExistsIffRecords(recs: seq<WebPage>)
    requires forall k | 0 <= k < |recs| :: recs[k].distanceFromHome >= 1
    ensures GetMaxDistancePath(recs, 0).path.Some? <==> |recs| > 0
  {
    GetMaxDistancePathSpec(recs, 0);
    if |recs| > 0 {
      MinDistanceLeast(recs, 0);
    }
  }

  /** After a crawl, a fresh crawler's pass over the flattened map yields
      a path exactly when some expanded page has a child record. */
  lemma PathAfterCrawl(cfg: Crawl.Config, order: seq<string>)
    requires Crawl.Enumerates(order, Crawl.BeginCrawl(cfg).pages)
    ensures var recs := Crawl.Flatten(Crawl.BeginCrawl(cfg).pages, order);
      GetMaxDistancePath(recs, 0).path.Some? <==> |recs| > 0
  {
    var st := Crawl.BeginCrawl(cfg);
    var recs := Crawl.Flatten(st.pages, order);
    forall k | 0 <= k < |recs|
      ensures recs[k].distanceFromHome >= 1
    {
      Crawl.FlattenValid(cfg, st, order, recs[k]);
    }
    PathExistsIffRecords(recs);
  }

  /** The reported path names a page at the reported distance: the
      property the source's note ("if there are multiple paths to a same
      page, we compare the shortest paths") promises. */
  ghost predicate Consistent(orig: seq<WebPage>, r: Pass)
  {
    r.path.Some? ==> |r.path.value| == 1 && r.maxDistance == MinDistance(orig, r.path.value[0])
  }

  /** As written, the pass compares a record's distance with `maxDistance`
      before every record with its URL has been reconciled, so the
      maximum can come from a distance that is later lowered: two records
      for the same page at distances 5 and 3 report distance 5 although
      the page's shortest distance is 3. */
  lemma OverReportedDistance()
    ensures var recs := [WebPage("u", "h", 5, [], []), WebPage("u", "h", 3, [], [])];
      var r := GetMaxDistancePath(recs, 0);
      && r.maxDistance == 5
      && r.recs[0].distanceFromHome == 3 && r.recs[1].distanceFromHome == 3
      && !Consistent(recs, r)
  {
    var a := WebPage("u", "h", 5, [], []);
    var b := WebPage("u", "h", 3, [], []);
    var recs := [a, b];
    var a3 := WithDistance(a, 3);
    var p0 := Pass(recs, 0, None);
    var p1 := Pass(recs, 5, Some(["u"]));
    var p2 := Pass([a3, b], 5, Some(["u"]));
    assert Inner(p2, 0, 2) == p2;
    assert Inner(p1, 0, 1) == p2;
    assert recs[0 := WithDistance(a, 5)] == recs;
    assert Inner(p0, 0, 0) == p2;
    assert Inner(p2, 1, 2) == p2;
    assert Inner(p2, 1, 1) == p2;
    assert [a3, b][0 := WithDistance(a3, 3)] == [a3, b];
    assert [a3, b][1 := WithDistance(b, 3)] == [a3, b];
    assert Inner(p2, 1, 0) == p2;
    assert Outer(p2, 2) == p2;
    assert Outer(p2, 1) == p2;
    assert GetMaxDistancePath(recs, 0) == p2;
    MinDistanceLeast(recs, 1);
  }

  /** Largest distance over `recs` from `i` on, raising `p`'s maximum and
      path as the source does, record by record. */
  function ScanMax(recs: seq<WebPage>, i: nat, p: Pass): (r: Pass)
    requires i <= |recs|
    decreases |recs| - i
  {
    if i == |recs| then p
    else if recs[i].distanceFromHome > p.maxDistance then
      ScanMax(recs, i + 1, Pass(p.recs, recs[i].distanceFromHome, Some([recs[i].givenURL])))
    else
      ScanMax(recs, i + 1, p)
  }

  /** The records with every distance lowered to the least for its URL. */
  function Reconciled(recs: seq<WebPage>): (r: seq<WebPage>)
    ensures |r| == |recs|
    ensures forall k | 0 <= k < |recs| :: r[k] == WithDistance(recs[k], MinDistance(recs, recs[k].givenURL))
  {
    seq(|recs|, k requires 0 <= k < |recs| => WithDistance(recs[k], MinDistance(recs, recs[k].givenURL)))
  }

  /** The pass as evidently intended: reconcile every URL's distance
      first, then take the largest. */
  function GetMaxDistancePathFixed(recs: seq<WebPage>, maxDistance: int): Pass
  {
    var low := Reconciled(recs);
    ScanMax(low, 0, Pass(low, maxDistance, None))
  }

  lemma {:induction false} ScanMaxSpec(orig: seq<WebPage>, i: nat, p: Pass, max0: int)
    requires i <= |orig| && max0 <= p.maxDistance
    requires p.path.Some? <==> p.maxDistance > max0
    requires forall k | 0 <= k < i :: orig[k].distanceFromHome <= p.maxDistance
    requires p.path.Some? ==>
      && |p.path.value| == 1
      && exists k | 0 <= k < |orig| :: orig[k].givenURL == p.path.value[0] && orig[k].distanceFromHome == p.maxDistance
    ensures var r := ScanMax(orig, i, p);
      && r.recs == p.recs
      && max0 <= r.maxDistance
      && (r.path.Some? <==> r.maxDistance > max0)
      && (forall k | 0 <= k < |orig| :: orig[k].distanceFromHome <= r.maxDistance)
      && (r.path.Some? ==>
            && |r.path.value| == 1
            && exists k | 0 <= k < |orig| :: orig[k].givenURL == r.path.value[0] && orig[k].distanceFromHome == r.maxDistance)
    decreases |orig| - i
  {
    if i < |orig| {
      if orig[i].distanceFromHome > p.maxDistance {
        ScanMaxSpec(orig, i + 1, Pass(p.recs, orig[i].distanceFromHome, Some([orig[i].givenURL])), max0);
      } else {
        ScanMaxSpec(orig, i + 1, p, max0);
      }
    }
  }

  /** The corrected pass reconciles like the original, keeps `maxDistance`
      at least as large as every reconciled distance, and reports a path
      whose page lies exactly at `maxDistance`. */
  lemma FixedPathConsistent(recs: seq<WebPage>, max0: int)
    ensures var r := GetMaxDistancePathFixed(recs, max0);
      && r.recs == GetMaxDistancePath(recs, max0).recs
      && max0 <= r.maxDistance
      && (forall k | 0 <= k < |recs| :: r.recs[k].distanceFromHome <= r.maxDistance)
      && (r.path.Some? <==> r.maxDistance > max0)
      && Consistent(recs, r)
  {
    var low := Reconciled(recs);
    ScanMaxSpec(low, 0, Pass(low, max0, None), max0);
    GetMaxDistancePathSpec(recs, max0);
    assert GetMaxDistancePath(recs, max0).recs == low;
  }
}

=== FILE: stranded.dfy ===
/** `isStrandedLink` and `getStrandedLinks`: which expanded URLs show no
    link back to the home page. The test looks at the raw links of the
    key's child pages, not at the key's own page. */
module Stranded {
  import opened WebPages

  /** `link` is the home URL up to one trailing slash on either side. */
  predicate HomeEquivalent(link: string, home: string)
  {
    link == home || link == home + "/" || link + "/" == home
  }

  /** Some child record holds at least one raw link. */
  ghost predicate HasRawLink(recs: seq<WebPage>)
  {
    exists i | 0 <= i < |recs| :: |recs[i].children| > 0
  }

  /** Some child record holds a raw link that is the home URL, with or
      without a trailing slash. */
  ghost predicate LinksHome(recs: seq<WebPage>, home: string)
  {
    exists i, j | 0 <= i < |recs| && 0 <= j < |recs[i].children| ::
      recs[i].children[j] == home || recs[i].children[j] == home + "/"
  }

  /** The meaning of "stranded": no child record has a raw link at all, or
      the key is not home-equivalent and no raw link points home. */
  ghost predicate IsStranded(pages: map<string, seq<WebPage>>, home: string, link: string)
    requires link in pages
  {
    !(HasRawLink(pages[link]) && (HomeEquivalent(link, home) || LinksHome(pages[link], home)))
  }

  /** `isStrandedLink(link)`: scan every raw link of every child record; the
      first one met settles the answer if the key itself is
      home-equivalent, and any raw link to home settles it too. The source
      raises on a URL that is not a key, hence the precondition. */
  method IsStrandedLink(pages: map<string, seq<WebPage>>, home: string, link: string)
    returns (stranded: bool)
    requires link in pages
    ensures stranded <==> IsStranded(pages, home, link)
  {
    var recs := pages[link];
    var i := 0;
    while i < |recs|
      invariant 0 <= i <= |recs|
      invariant forall i' | 0 <= i' < i :: |recs[i'].children| == 0 || !HomeEquivalent(link, home)
      invariant forall i', j | 0 <= i' < i && 0 <= j < |recs[i'].children| ::
        recs[i'].children[j] != home && recs[i'].children[j] != home + "/"
    {
      var kids := recs[i].children;
      var j := 0;
      while j < |kids|
        invariant 0 <= j <= |kids|
        invariant j > 0 ==> !HomeEquivalent(link, home)
        invariant forall j' | 0 <= j' < j :: kids[j'] != home && kids[j'] != home + "/"
      {
        if HomeEquivalent(link, home) {
          return false;
        } else if kids[j] == home || kids[j] == home + "/" {
          return false;
        }
        j := j + 1;
      }
      i := i + 1;
    }
    return true;
  }

  /** `getStrandedLinks`: the keys for which `isStrandedLink` holds. The
      source lists them in dictionary order; the model returns the set. */
  method GetStrandedLinks(pages: map<string, seq<WebPage>>, home: string)
    returns (stranded: set<string>)
    ensures forall k :: k in stranded <==> k in pages && IsStranded(pages, home, k)
  {
    stranded := {};
    var todo := pages.Keys;
    while todo != {}
      invariant todo <= pages.Keys
      invariant forall k :: k in stranded <==> k in pages.Keys - todo && IsStranded(pages, home, k)
      decreases todo
    {
      var k :| k in todo;
      var s := IsStrandedLink(pages, home, k);
      if s {
        stranded := stranded + {k};
      }
      todo := todo - {k};
    }
  }

  /** A key whose child records hold no raw link is reported stranded, the
      home page included. */
  lemma NoRawLinksStranded(pages: map<string, seq<WebPage>>, home: string, link: string)
    requires link in pages
    requires forall i | 0 <= i < |pages[link]| :: pages[link][i].children == []
    ensures IsStranded(pages, home, link)
  {
  }

  /** A home-equivalent key with any raw link among its child records is
      never stranded. */
  lemma HomeKeyNotStranded(pages: map<string, seq<WebPage>>, home: string, link: string, i: nat)
    requires link in pages && HomeEquivalent(link, home)
    requires i < |pages[link]| && |pages[link][i].children| > 0
    ensures !IsStranded(pages, home, link)
  {
  }
}

=== FILE: strings.dfy ===
/** The handful of Python `str` operations the crawler relies on, over
    `seq<char>`: `find`, `startswith`, substring tests and `replace`. */
module Strings {

  /** `t` occurs in `s` starting at index `i`. */
  predicate OccursAt(s: string, t: string, i: int)
  {
    0 <= i && i + |t| <= |s| && s[i..i + |t|] == t
  }

  /** Python `s.find(t)`: the lowest index at which `t` occurs, or -1.
      `FindFirst` states the "lowest" half. */
  function Find(s: string, t: string): (r: int)
    ensures -1 <= r <= |s|
    ensures r >= 0 ==> OccursAt(s, t, r)
  {
    FindFrom(s, t, 0)
  }

  function FindFrom(s: string, t: string, i: nat): (r: int)
    requires i <= |s|
    ensures r == -1 || (i <= r <= |s| && OccursAt(s, t, r))
    decreases |s| - i
  {
    if i + |t| > |s| then -1
    else if s[i..i + |t|] == t then i
    else if i == |s| then -1
    else FindFrom(s, t, i + 1)
  }

  /** Any occurrence of `t` at or after `i` is found, at that index or an
      earlier one. */
  lemma {:induction false} FindFromFirst(s: string, t: string, i: nat, j: int)
    requires i <= |s| && i <= j && OccursAt(s, t, j)
    ensures i <= FindFrom(s, t, i) <= j
    decreases |s| - i
  {
    if i + |t| <= |s| && s[i..i + |t|] != t && i < |s| {
      FindFromFirst(s, t, i + 1, j);
    }
  }

  /** `Find` returns the first occurrence: none exists before it, and when
      one exists it does not return -1. */
  lemma FindFirst(s: string, t: string, j: int)
    requires OccursAt(s, t, j)
    ensures 0 <= Find(s, t) <= j
  {
    FindFromFirst(s, t, 0, j);
  }

  /** Python `s.find(t) != -1`, i.e. `t in s`. */
  predicate Contains(s: string, t: string)
  {
    Find(s, t) != -1
  }

  /** Python `s.startswith(t)`; on other sequences, `t` is a prefix of
      `s`. */
  predicate StartsWith<T(==)>(s: seq<T>, t: seq<T>)
  {
    |t| <= |s| && s[..|t|] == t
  }

  lemma ContainsWitness(s: string, t: string, i: int)
    requires OccursAt(s, t, i)
    ensures Contains(s, t)
  {
    FindFirst(s, t, i);
  }

  /** Occurrence is transitive: a substring of a substring of `s` is a
      substring of `s`. */
  lemma {:induction false} OccursTrans(s: string, t: string, u: string, i: int, j: int)
    requires OccursAt(s, t, i) && OccursAt(t, u, j)
    ensures OccursAt(s, u, i + j)
  {
    forall k | 0 <= k < |u|
      ensures s[i + j + k] == u[k]
    {
      assert s[i..i + |t|][j + k] == t[j + k];
      assert t[j..j + |u|][k] == u[k];
    }
  }

  lemma ContainsTrans(s: string, t: string, u: string)
    requires Contains(s, t) && Contains(t, u)
    ensures Contains(s, u)
  {
    OccursTrans(s, t, u, Find(s, t), Find(t, u));
    ContainsWitness(s, u, Find(s, t) + Find(t, u));
  }

  /** Every suffix of `s` occurs in `s`. */
  lemma ContainsSuffix(s: string, k: nat)
    requires k <= |s|
    ensures Contains(s, s[k..])
  {
    ContainsWitness(s, s[k..], k);
  }

  /** An occurrence of `t` in `a + b` lies wholly inside `b` when the first
      character of `t` never appears in `a`. */
  lemma {:induction false} OccursPastPrefix(a: string, b: string, t: string, i: int)
    requires t != [] && OccursAt(a + b, t, i)
    requires forall k :: 0 <= k < |a| ==> a[k] != t[0]
    ensures i >= |a| && OccursAt(b, t, i - |a|)
  {
    assert i >= |a| by {
      assert (a + b)[i..i + |t|][0] == t[0];
    }
    forall k | 0 <= k < |t|
      ensures b[i - |a| + k] == t[k]
    {
      assert (a + b)[i..i + |t|][k] == t[k];
    }
  }

  /** Prepending a text none of whose characters starts `t` neither creates
      nor removes an occurrence of `t`. */
  lemma ContainsPastPrefix(a: string, b: string, t: string)
    requires t != []
    requires forall k :: 0 <= k < |a| ==> a[k] != t[0]
    ensures Contains(a + b, t) <==> Contains(b, t)
  {
    if Contains(a + b, t) {
      var i := Find(a + b, t);
      OccursPastPrefix(a, b, t, i);
      ContainsWitness(b, t, i - |a|);
    }
    if Contains(b, t) {
      var i := Find(b, t);
      OccursShift(a, b, t, i);
      ContainsWitness(a + b, t, |a| + i);
    }
  }

  lemma {:induction false} OccursShift(a: string, b: string, t: string, i: int)
    requires OccursAt(b, t, i)
    ensures OccursAt(a + b, t, |a| + i)
  {
    forall k | 0 <= k < |t|
      ensures (a + b)[|a| + i + k] == t[k]
    {
      assert b[i..i + |t|][k] == t[k];
    }
  }

  /** Python `s.replace(pat, rep)`: every non-overlapping occurrence of
      `pat`, scanning left to right, is replaced by `rep`; an empty `pat`
      inserts `rep` before every character and at the end. */
  function ReplaceAll(s: string, pat: string, rep: string): (r: string)
    ensures pat != [] && !Contains(s, pat) ==> r == s
    ensures pat == [] ==> |r| == |s| + (|s| + 1) * |rep|
    ensures pat == [] && rep == [] ==> r == s
    decreases |s|
  {
    if pat == [] then
      if s == [] then rep
      else
        assert s == [s[0]] + s[1..];
        rep + [s[0]] + ReplaceAll(s[1..], pat, rep)
    else if |s| < |pat| then s
    else if s[..|pat|] == pat then
      assert OccursAt(s, pat, 0);
      rep + ReplaceAll(s[|pat|..], pat, rep)
    else
      NoOccurrenceInTail(s, pat);
      [s[0]] + ReplaceAll(s[1..], pat, rep)
  }

  lemma NoOccurrenceInTail(s: string, pat: string)
    requires s != [] && pat != []
    ensures Contains(s[1..], pat) ==> Contains(s, pat)
  {
    if Contains(s[1..], pat) {
      var i := Find(s[1..], pat);
      assert s[1..][i..i + |pat|] == s[i + 1..i + 1 + |pat|];
      assert OccursAt(s, pat, i + 1);
      ContainsWitness(s, pat, i + 1);
    }
  }

  /** Replacing a text by itself changes nothing, the empty text
      included. */
  lemma {:induction false} ReplaceByItself(s: string, t: string)
    ensures ReplaceAll(s, t, t) == s
    decreases |s|
  {
    if t == [] {
    } else if |s| < |t| {
    } else if s[..|t|] == t {
      ReplaceByItself(s[|t|..], t);
      assert s == s[..|t|] + s[|t|..];
    } else {
      ReplaceByItself(s[1..], t);
      assert s == [s[0]] + s[1..];
    }
  }

  /** A one-character needle occurs exactly when some character equals it. */
  lemma ContainsChar(s: string, c: char)
    ensures Contains(s, [c]) <==> exists i | 0 <= i < |s| :: s[i] == c
  {
    if Contains(s, [c]) {
      var i := Find(s, [c]);
      assert s[i..i + 1][0] == s[i];
    }
    if exists i | 0 <= i < |s| :: s[i] == c {
      var i :| 0 <= i < |s| && s[i] == c;
      assert s[i..i + 1] == [c];
      ContainsWitness(s, [c], i);
    }
  }

  /** Joining two texts that lack a character gives a text that lacks it. */
  lemma NoCharInConcat(a: string, b: string, c: char)
    requires !Contains(a, [c]) && !Contains(b, [c])
    ensures !Contains(a + b, [c])
  {
    ContainsChar(a, c);
    ContainsChar(b, c);
    ContainsChar(a + b, c);
  }

  lemma StartsWithTrans<T>(s: seq<T>, t: seq<T>, u: seq<T>)
    requires StartsWith(s, t) && StartsWith(t, u)
    ensures StartsWith(s, u)
  {
    assert s[..|t|][..|u|] == s[..|u|];
  }
}

=== FILE: url_rules.dfy ===
/** Address handling of `WebCrawler`: deriving the search prefix, turning a
    raw href into a fetchable URL, and the two scope tests. */
module UrlRules {
  import opened Wrappers
  import opened Strings

  /** The crawl-scope test: a URL is in scope when the prefix occurs in it
      anywhere, not only at its start. */
  predicate InScope(url: string, prefix: string)
  {
    Contains(url, prefix)
  }

  /** The four top-level-domain markers the crawler recognises. */
  predicate HasTld(u: string)
  {
    Contains(u, ".com") || Contains(u, ".edu") || Contains(u, ".gov") || Contains(u, ".org")
  }

  /** `r` is `p` cut just after the first occurrence of the marker `m`. */
  ghost predicate CutAfterFirst(r: string, p: string, m: string)
  {
    |m| <= |r| <= |p| && r == p[..|r|] && Find(p, m) == |r| - |m|
  }

  /** The host part of the home URL: without a leading `http://`, or else
      up to its first `/`. */
  function HostPart(homeURL: string): (r: string)
    ensures Contains(homeURL, r)
    ensures StartsWith(homeURL, "http://") ==> homeURL == "http://" + r
    ensures !StartsWith(homeURL, "http://") ==> StartsWith(homeURL, r) && !Contains(r, "/")
    ensures !StartsWith(homeURL, "http://") ==> |r| == |homeURL| || homeURL[|r|] == '/'
  {
    if StartsWith(homeURL, "http://") then
      ContainsWitness(homeURL, homeURL[7..], 7);
      homeURL[7..]
    else if Contains(homeURL, "/") then
      var r := homeURL[..Find(homeURL, "/")];
      ContainsWitness(homeURL, r, 0);
      NotInPrefix(homeURL, Find(homeURL, "/"), "/");
      r
    else
      ContainsWitness(homeURL, homeURL, 0);
      homeURL
  }

  /** An occurrence in `s[..n]` is an occurrence in `s`; so before the first
      occurrence of `t` in `s` there is none. */
  lemma {:induction false} NotInPrefix(s: string, n: nat, t: string)
    requires t != [] && n <= |s|
    requires Find(s, t) == -1 || Find(s, t) >= n
    ensures !Contains(s[..n], t)
  {
    if Contains(s[..n], t) {
      var j := Find(s[..n], t);
      assert j + |t| <= n;
      assert s[..n][j..j + |t|] == s[j..j + |t|];
      FindFirst(s, t, j);
    }
  }

  /** The domain cut applied to the host part: after the first marker, with
      `.com`, `.edu`, `.gov`, `.org` tried in that order. */
  function TruncateAtTld(p: string): (r: string)
    ensures StartsWith(p, r)
    ensures Contains(p, ".com") ==> CutAfterFirst(r, p, ".com")
    ensures !Contains(p, ".com") && Contains(p, ".edu") ==> CutAfterFirst(r, p, ".edu")
    ensures !Contains(p, ".com") && !Contains(p, ".edu") && Contains(p, ".gov") ==> CutAfterFirst(r, p, ".gov")
    ensures !Contains(p, ".com") && !Contains(p, ".edu") && !Contains(p, ".gov") && Contains(p, ".org") ==> CutAfterFirst(r, p, ".org")
    ensures !HasTld(p) ==> r == p
  {
    if Contains(p, ".com") then p[..Find(p, ".com") + 4]
    else if Contains(p, ".edu") then p[..Find(p, ".edu") + 4]
    else if Contains(p, ".gov") then p[..Find(p, ".gov") + 4]
    else if Contains(p, ".org") then p[..Find(p, ".org") + 4]
    else p
  }

  /** `getCorrectPrefix`: a given (non-empty) prefix is kept; otherwise the
      prefix is derived from the home URL. An absent and an empty prefix are
      the same here, as both are false in the source's test. */
  function GetCorrectPrefix(homeURL: string, prefixGiven: string): (r: string)
    ensures prefixGiven != [] ==> r == prefixGiven
    ensures prefixGiven == [] ==> Contains(homeURL, r) && StartsWith(HostPart(homeURL), r)
    ensures prefixGiven == [] && Contains(HostPart(homeURL), ".com") ==> CutAfterFirst(r, HostPart(homeURL), ".com")
    ensures prefixGiven == [] && !HasTld(HostPart(homeURL)) ==> r == HostPart(homeURL)
  {
    if prefixGiven != [] then prefixGiven
    else
      var host := HostPart(homeURL);
      var r := TruncateAtTld(host);
      ContainsWitness(host, r, 0);
      ContainsTrans(homeURL, host, r);
      r
  }

  /** The home page always passes the scope test against a derived prefix. */
  lemma HomeInScope(homeURL: string)
    ensures InScope(homeURL, GetCorrectPrefix(homeURL, ""))
  {
  }

  /** The text of a link up to its first `#`. */
  function StripFragment(url: string): (r: string)
    ensures StartsWith(url, r)
    ensures !Contains(r, "#")
    ensures !Contains(url, "#") ==> r == url
    ensures Contains(url, "#") ==> |r| < |url| && url[|r|] == '#'
  {
    if Contains(url, "#") then
      NotInPrefix(url, Find(url, "#"), "#");
      url[..Find(url, "#")]
    else url
  }

  /** The links `fixGivenURL` refuses: same-page fragments, `javascript:`
      links, Java sources and mail links. */
  predicate Rejected(url: string)
  {
    StartsWith(url, "#") || Contains(url, "javascript:") || Contains(url, ".java") || Contains(url, "mailto")
  }

  /** `fixGivenURL`: a raw href found on the page at `currentDomain`, made
      into a URL `readURL` can open, or `None` where the source returns
      `False`. */
  function FixGivenURL(url: string, currentDomain: string, prefix: string): (r: Option<string>)
    ensures r.None? <==> Rejected(url)
    ensures r.Some? ==> StartsWith(r.value, "http")
  {
    if StartsWith(url, "#") then None
    else if Contains(url, "javascript:") || Contains(url, ".java") then None
    else if Contains(url, "mailto") then None
    else
      var u := StripFragment(url);
      var v :=
        if StartsWith(u, "//") then "http:" + u
        else if !HasTld(u) then
          if Contains(currentDomain, u) then
            if !Contains(currentDomain, ".") then
              // the source computes prefix.replace(...) + u, then overwrites
              // it with prefix + that text
              var domainHead := currentDomain[..Find(currentDomain, ".") + 1];
              var prefixHead := prefix[..Find(prefix, ".") + 1];
              prefix + (ReplaceAll(prefix, prefixHead, domainHead) + u)
            else currentDomain
          else currentDomain + u
        else u;
      Some(if StartsWith(v, "http") then v else "http://" + v)
  }

  /** A link that survives the rejections, is not protocol-relative and
      names one of the four domains before any `#` comes back as its text up
      to the first `#`, given `http://` only when it lacks an `http` start. */
  lemma FixKeepsAbsoluteLinks(url: string, currentDomain: string, prefix: string)
    requires !Rejected(url) && !StartsWith(url, "//")
    requires HasTld(StripFragment(url))
    ensures var s := StripFragment(url);
      FixGivenURL(url, currentDomain, prefix) == Some(if StartsWith(s, "http") then s else "http://" + s)
  {
  }

  /** A prefix of `url` contains nothing `url` does not. */
  lemma ContainsViaPrefix(url: string, s: string, t: string)
    requires StartsWith(url, s) && Contains(s, t)
    ensures Contains(url, t)
  {
    assert OccursAt(url, s, 0);
    ContainsTrans(url, s, t);
  }

  /** Prepending `http://` creates no occurrence of the patterns
      `fixGivenURL` looks for: none of them starts with a character of the
      scheme. */
  lemma SchemeHidesNothing(s: string)
    ensures var r := "http://" + s;
      && (Contains(r, "javascript:") <==> Contains(s, "javascript:"))
      && (Contains(r, ".java") <==> Contains(s, ".java"))
      && (Contains(r, "mailto") <==> Contains(s, "mailto"))
      && (Contains(r, "#") <==> Contains(s, "#"))
      && (HasTld(r) <==> HasTld(s))
  {
    var scheme := "http://";
    ContainsPastPrefix(scheme, s, "javascript:");
    ContainsPastPrefix(scheme, s, ".java");
    ContainsPastPrefix(scheme, s, "mailto");
    ContainsPastPrefix(scheme, s, "#");
    ContainsPastPrefix(scheme, s, ".com");
    ContainsPastPrefix(scheme, s, ".edu");
    ContainsPastPrefix(scheme, s, ".gov");
    ContainsPastPrefix(scheme, s, ".org");
  }

  /** Normalising is idempotent on absolute links: feeding a result of the
      previous lemma back in, from any page and under any prefix, returns it
      unchanged. */
  lemma {:induction false} FixIdempotent(url: string, currentDomain: string, prefix: string,
                                         otherDomain: string, otherPrefix: string)
    requires !Rejected(url) && !StartsWith(url, "//")
    requires HasTld(StripFragment(url))
    ensures var r := FixGivenURL(url, currentDomain, prefix);
      r.Some? && FixGivenURL(r.value, otherDomain, otherPrefix) == r
  {
    FixKeepsAbsoluteLinks(url, currentDomain, prefix);
    var s := StripFragment(url);
    var r := FixGivenURL(url, currentDomain, prefix).value;
    // s inherits from url the absence of every rejected pattern
    if Contains(s, "javascript:") { ContainsViaPrefix(url, s, "javascript:"); }
    if Contains(s, ".java") { ContainsViaPrefix(url, s, ".java"); }
    if Contains(s, "mailto") { ContainsViaPrefix(url, s, "mailto"); }
    if !StartsWith(s, "http") {
      SchemeHidesNothing(s);
      assert r[..4] == "http";
    }
    assert !Rejected(r) && !Contains(r, "#") && HasTld(r);
    assert StripFragment(r) == r;
    assert !StartsWith(r, "//") by {
      assert r[0] == 'h';
    }
    FixKeepsAbsoluteLinks(r, otherDomain, otherPrefix);
  }

  /** The branch for a relative link found on a page whose URL has no `.`
      (web-crawler.py lines 193-195). An in-scope page URL contains the
      prefix, so the prefix has no `.` either: both heads are empty, the
      `replace` returns the prefix itself, and the link comes back as the
      prefix written twice followed by the link. */
  lemma DotlessDomainDoublesPrefix(url: string, currentDomain: string, prefix: string)
    requires !Rejected(url)
    requires !StartsWith(StripFragment(url), "//") && !HasTld(StripFragment(url))
    requires Contains(currentDomain, StripFragment(url)) && !Contains(currentDomain, ".")
    requires InScope(currentDomain, prefix)
    ensures var v := prefix + prefix + StripFragment(url);
      FixGivenURL(url, currentDomain, prefix) == Some(if StartsWith(v, "http") then v else "http://" + v)
  {
    if Contains(prefix, ".") {
      ContainsTrans(currentDomain, prefix, ".");
    }
    var u := StripFragment(url);
    var domainHead := currentDomain[..Find(currentDomain, ".") + 1];
    var prefixHead := prefix[..Find(prefix, ".") + 1];
    assert ReplaceAll(prefix, prefixHead, domainHead) == prefix;
    assert prefix + (ReplaceAll(prefix, prefixHead, domainHead) + u) == prefix + prefix + u;
  }

  /** A protocol-relative link (web-crawler.py lines 189-190), once its
      fragment is cut, gets `http:` in front. */
  lemma FixProtocolRelative(url: string, currentDomain: string, prefix: string)
    requires !Rejected(url) && StartsWith(StripFragment(url), "//")
    ensures FixGivenURL(url, currentDomain, prefix) == Some("http:" + StripFragment(url))
  {
    assert ("http:" + StripFragment(url))[..4] == "http";
  }

  /** A relative link without a TLD that the page URL does not contain
      (web-crawler.py line 199) is appended to the page URL. */
  lemma FixAppendsToPage(url: string, currentDomain: string, prefix: string)
    requires !Rejected(url)
    requires !StartsWith(StripFragment(url), "//") && !HasTld(StripFragment(url))
    requires !Contains(currentDomain, StripFragment(url))
    ensures var v := currentDomain + StripFragment(url);
      FixGivenURL(url, currentDomain, prefix) == Some(if StartsWith(v, "http") then v else "http://" + v)
  {
  }

  /** A relative link without a TLD that the page URL contains, on a page
      whose URL has a `.` (web-crawler.py line 197), becomes the page URL
      itself. */
  lemma FixBecomesPage(url: string, currentDomain: string, prefix: string)
    requires !Rejected(url)
    requires !StartsWith(StripFragment(url), "//") && !HasTld(StripFragment(url))
    requires Contains(currentDomain, StripFragment(url)) && Contains(currentDomain, ".")
    ensures FixGivenURL(url, currentDomain, prefix)
      == Some(if StartsWith(currentDomain, "http") then currentDomain else "http://" + currentDomain)
  {
  }

  /** Adding the scheme brings in no `#`. */
  lemma WithSchemeNoFragment(v: string)
    requires !Contains(v, "#")
    ensures !Contains(if StartsWith(v, "http") then v else "http://" + v, "#")
  {
    var scheme := "http://";
    ContainsChar(scheme, '#');
    assert forall i | 0 <= i < |scheme| :: scheme[i] != '#';
    NoCharInConcat(scheme, v, '#');
  }

  /** The fragment is always removed (the docstring at web-crawler.py lines
      170-171): on an in-scope page whose URL has no `#`, under a prefix
      without `#`, no accepted result contains a `#`, whichever branch
      produced it. */
  lemma FixRemovesFragment(url: string, currentDomain: string, prefix: string)
    requires !Contains(currentDomain, "#") && !Contains(prefix, "#")
    requires InScope(currentDomain, prefix)
    ensures var r := FixGivenURL(url, currentDomain, prefix);
      r.Some? ==> !Contains(r.value, "#")
  {
    if !Rejected(url) {
      var u := StripFragment(url);
      if StartsWith(u, "//") {
        FixProtocolRelative(url, currentDomain, prefix);
        NoCharInConcat("http:", u, '#');
      } else if HasTld(u) {
        FixKeepsAbsoluteLinks(url, currentDomain, prefix);
        WithSchemeNoFragment(u);
      } else {
        RelativeNoFragment(url, currentDomain, prefix);
      }
    }
  }

  /** The relative branches of web-crawler.py lines 191-202 bring in no
      `#`. */
  lemma RelativeNoFragment(url: string, currentDomain: string, prefix: string)
    requires !Contains(currentDomain, "#") && !Contains(prefix, "#")
    requires InScope(currentDomain, prefix)
    requires !Rejected(url)
    requires !StartsWith(StripFragment(url), "//") && !HasTld(StripFragment(url))
    ensures var r := FixGivenURL(url, currentDomain, prefix);
      r.Some? && !Contains(r.value, "#")
  {
    var u := StripFragment(url);
    if !Contains(currentDomain, u) {
      FixAppendsToPage(url, currentDomain, prefix);
      NoCharInConcat(currentDomain, u, '#');
      WithSchemeNoFragment(currentDomain + u);
    } else if Contains(currentDomain, ".") {
      FixBecomesPage(url, currentDomain, prefix);
      WithSchemeNoFragment(currentDomain);
    } else {
      DotlessDomainDoublesPrefix(url, currentDomain, prefix);
      NoCharInConcat(prefix, prefix, '#');
      NoCharInConcat(prefix + prefix, u, '#');
      WithSchemeNoFragment(prefix + prefix + u);
    }
  }

  /** `isExternalURL`: the URL does not contain the part of the prefix after
      its first `.` (all of it when there is no `.`). */
  predicate IsExternalURL(url: string, prefix: string)
  {
    Find(url, prefix[Find(prefix, ".") + 1..]) == -1
  }

  /** Scope closure at the level of one URL: whatever contains the prefix
      contains its domain part, so it is never classified external. */
  lemma InScopeIsNotExternal(url: string, prefix: string)
    requires InScope(url, prefix)
    ensures !IsExternalURL(url, prefix)
  {
    ContainsSuffix(prefix, Find(prefix, ".") + 1);
    ContainsTrans(url, prefix, prefix[Find(prefix, ".") + 1..]);
  }
}

=== FILE: web_pages.dfy ===
/** The `WebPage` record of web-crawler.py: one fetch attempt for one URL.
    The network read (`readURL`) and the href scan (`getAllHrefValues`) are
    folded into one abstract `Fetch`: `None` when the read fails, otherwise
    the page's raw href values in document order. */
module WebPages {
  import opened Wrappers

  /** A broken-link entry: (the URL that failed, the page it was found on). */
  type BrokenLink = (string, string)

  type Fetch = string -> Option<seq<string>>

  datatype WebPage = WebPage(
    givenURL: string,
    parentURL: string,
    distanceFromHome: int,
    children: seq<string>,
    brokenLinks: seq<BrokenLink>)

  /** Constructing a `WebPage` fetches it at once; a failed fetch is recorded
      in the page's own broken-link list (`addBrokenLink`) and leaves it
      without children. */
  function NewPage(fetch: Fetch, link: string, distance: int, parent: string): (p: WebPage)
    ensures p.givenURL == link && p.parentURL == parent && p.distanceFromHome == distance
    ensures fetch(link).None? <==> p.brokenLinks == [(link, parent)]
    ensures fetch(link).Some? <==> p.brokenLinks == []
    ensures p.children == fetch(link).GetOr([])
  {
    match fetch(link)
    case None => WebPage(link, parent, distance, [], [(link, parent)])
    case Some(hrefs) => WebPage(link, parent, distance, hrefs, [])
  }

  /** A page as the crawler builds it: its children and broken links are
      exactly what fetching its own URL yields. */
  predicate Fetched(fetch: Fetch, p: WebPage)
  {
    p == NewPage(fetch, p.givenURL, p.distanceFromHome, p.parentURL)
  }
}

=== FILE: wrappers.dfy ===
/** Option, standing in for Python's `None`/`False` sentinels and for the
    one exception the modelled code can raise. */
module Wrappers {

  datatype Option<+T> = None | Some(value: T) {

    function GetOr(default: T): T
    {
      match this
      case Some(v) => v
      case None => default
    }
  }
}
